=== FILE: README.md ===
# keycloak_demo frontend — a Dafny model

This project models the browser side of keycloak_demo, a React single-page application. A user signs in through a Keycloak server (OpenID Connect with PKCE) and then lists, uploads, downloads and deletes documents through a backend API that requires a bearer token. The model covers these parts:

- **KeycloakService** (`KeycloakService.dfy`). The singleton that owns the Keycloak client. Covered: configuration from the environment with defaults, and `init`, which creates at most one client and binds its event handlers. Also covered: `login`/`logout` and their option defaults, the token refresh request, and the read-only queries (logged in, username, full name, client roles, `hasRole`, token, expiry).
- **App** (`App.dfy`). Covered pieces:
  - the clean-up of OAuth artefacts in the address bar, both at module load and as an effect;
  - the one-shot initialisation effect, which classifies its errors;
  - the route guards;
  - the route table;
  - the choice of top-level screen.
- **ApiService** (`ApiService.dfy`). Covered: the endpoints and URLs, and the request interceptor, which refreshes an expired token and attaches `Authorization: Bearer …`. Also covered: the response interceptor, which starts a login on 401, and how error messages are picked.
- **Pages**:
  - `DocumentList.dfy`: fetching and sorting, the file-type icon, the admin-only delete button, and the delete flow.
  - `Profile.dfy`: the claims read from the token, the initials and the role badge colour.
  - `Dashboard.dfy`: the document count, the three most recent documents, and the welcome and role lines.
  - `UploadDocument.dfy`: the drag and drop state, the simulated progress interval and the upload flow.
- Shared helpers:
  - `Documents.dfy`: newest-first ordering, as a stable insertion sort.
  - `Text.dfy`: substring search, ECMAScript `trim`, ASCII case mapping and join.
  - `Wrappers.dfy`: `Option`, `Result`.

React state that the components update in place becomes a `class` whose fields are those state variables. Each handler becomes a `method` that states the complete new state. Asynchronous results are inputs to these methods:

- the outcome of the Keycloak client's `init`;
- the outcome of a token refresh;
- the outcome of an HTTP call;
- the user's answer to `window.confirm`;
- the number of interval firings.

Effects that leave the page are returned as values rather than performed: redirects, `history.replaceState`, and calls on the Keycloak client. Pure helpers are functions, and the properties that relate several of them are lemmas.

Several members are called on the service but are not defined in `KeycloakService.js`. `App.js` calls `isInSilentCheckIframe` (line 32), `initKeycloak` (line 76) and `clearUrlParameters` (lines 44, 52, 88 and 141). `ApiService.js` calls `doLogin` (lines 18 and 41). `doLogout` and the other calls of `doLogin` and `clearUrlParameters` are in `NavBar.js` and `LoginPage.js`, which are not part of this model. The model treats these members as opaque. Whether the page runs inside the silent-check iframe is an input flag. The init effect awaits `KeycloakService.initKeycloak(...)` (`App.js:76`), and what that undefined call settles to is an input of `AppState.InitEffect`. `logout` (`KeycloakService.js:111-121`) does not reset `keycloakInstance` or `isInitialized`, and the model follows the code: `Session.Logout` changes no field.

## Model

| member | source | states |
|---|---|---|
| KeycloakService.ConfigFromEnv | frontend/src/services/KeycloakService.js:4-8 | each of URL, realm and client id is taken from the environment when set and non-empty, else from its default |
| KeycloakService.DefaultConfig | frontend/src/services/KeycloakService.js:4-8 | with nothing set, the configuration is `http://localhost:8080`, realm `document-demo`, client `frontend-app` |
| KeycloakService.NewClient | frontend/src/services/KeycloakService.js:18 | a freshly constructed client is not authenticated and holds no token, parsed token or resource access |
| KeycloakService.InitOptions | frontend/src/services/KeycloakService.js:54-59 | caller options win; `onLoad` defaults to `check-sso`, `pkceMethod` to `S256`, `checkLoginIframe` to false; no other key is added |
| KeycloakService.LoginOptions | frontend/src/services/KeycloakService.js:99-102 | caller options are kept; `redirectUri` defaults to origin + `/dashboard`; nothing else is added |
| KeycloakService.LogoutOptions | frontend/src/services/KeycloakService.js:114-116 | caller options are kept; `redirectUri` defaults to the origin; nothing else is added |
| KeycloakService.IsLoggedIn | frontend/src/services/KeycloakService.js:132 | logged in only with a client, and then exactly when the client reports itself authenticated |
| KeycloakService.GetUsername | frontend/src/services/KeycloakService.js:133 | the `preferred_username` claim of the parsed token; absent without a client or parsed token |
| KeycloakService.GetToken | frontend/src/services/KeycloakService.js:149 | the client's raw token; absent without a client |
| KeycloakService.IsTokenExpired | frontend/src/services/KeycloakService.js:151 | no client counts as expired; otherwise the client's own expiry verdict |
| KeycloakService.HasRole | frontend/src/services/KeycloakService.js:146 | holds exactly when the role is in `getUserRoles()`, and never without a client |
| KeycloakService.GetFullName | frontend/src/services/KeycloakService.js:134-139 | the full name is never empty and never starts or ends with whitespace; without a client or parsed token it is `User` |
| KeycloakService.FullNameOfTidyNames | frontend/src/services/KeycloakService.js:134-139 | with both names present and trimmed, the full name is given name, a space, family name |
| KeycloakService.FullNameWithoutNames | frontend/src/services/KeycloakService.js:134-139 | when both names are missing or blank, the full name falls back to `User` |
| KeycloakService.FullNameOfGivenOnly | frontend/src/services/KeycloakService.js:134-139 | with a tidy given name and the family name missing or blank, the full name is the given name alone |
| KeycloakService.FullNameOfFamilyOnly | frontend/src/services/KeycloakService.js:134-139 | with a tidy family name and the given name missing or blank, the full name is the family name alone |
| KeycloakService.GetUserRoles | frontend/src/services/KeycloakService.js:142-145 | the roles are exactly the `roles` of the configured client's entry in `resourceAccess`, in their order; empty without a client, without resource access, or without that entry or its roles |
| KeycloakService.HasRoleIgnoresRealmRoles | frontend/src/services/KeycloakService.js:146 | `hasRole` holds exactly when the role is among the client roles; realm roles in the token have no effect |
| KeycloakService.OtherClientRolesIgnored | frontend/src/services/KeycloakService.js:144 | granting a role under another client's entry does not change `hasRole` for this client |
| KeycloakService.NoClientQueries | frontend/src/services/KeycloakService.js:132-151 | before `init` every query answers safely: not logged in, expired, no token, no username, `User`, no roles |
| KeycloakService.UpdateToken | frontend/src/services/KeycloakService.js:150 | rejects exactly when there is no client; otherwise asks for the given minimum validity, 5 seconds by default |
| KeycloakService.Session.constructor | frontend/src/services/KeycloakService.js:11-12 | the service starts with no client and not initialised |
| KeycloakService.Session.Init | frontend/src/services/KeycloakService.js:15-83 | at most one client is ever created; the client gets the defaulted init options; afterwards the service is initialised; success yields `authenticated`, failure is passed on; redirect to `/dashboard` exactly when authenticated at `/` |
| KeycloakService.Session.OnAuthSuccess | frontend/src/services/KeycloakService.js:21-31 | keeps the one-client invariant and marks the service initialised; redirects to `/dashboard` exactly when at `/` with a hash holding both `state=` and `code=` |
| KeycloakService.Session.OnAuthError | frontend/src/services/KeycloakService.js:33-36 | keeps the one-client invariant and marks the service initialised |
| KeycloakService.Session.OnTokenExpired | frontend/src/services/KeycloakService.js:38-43 | asks for a token valid 30 more seconds; a failed refresh is swallowed and leaves the client as it was |
| KeycloakService.Session.Login | frontend/src/services/KeycloakService.js:86-108 | rejects with the not-initialised message exactly when there is no client or `init` has not settled; only redirects when already authenticated; otherwise logs in with the defaulted options |
| KeycloakService.Session.Logout | frontend/src/services/KeycloakService.js:111-121 | does nothing without a client; otherwise logs out with the defaulted options, and sends the browser to `/` exactly when the client's logout fails |
| App.CleanAtLoad | frontend/src/App.js:18-25 | an address carrying `error=` or `code_challenge_method` loses its query and fragment; any other address is left alone |
| App.CleanAtLoadIdempotent | frontend/src/App.js:18-25 | cleaning twice is the same as cleaning once |
| App.ArtifactAfterCleanAtLoad | frontend/src/App.js:18-25 | after cleaning, an artefact can remain only in the origin or path |
| App.ArtifactEffect | frontend/src/App.js:40-53 | inside the iframe nothing is touched; otherwise an OAuth artefact clears the address and goes to `/login`, and a bare fragment is cleared in place |
| App.EffectAfterCleanAtLoad | frontend/src/App.js:18-47 | once the load-time clean-up ran, the effect redirects to `/login` only if `code_challenge_method` is in the origin or path |
| App.ErrorReturnExampleCleaned | frontend/src/App.js:18-25 | an error return to `/dashboard#error=…` is reduced to the bare `/dashboard` address, which the effect then leaves alone |
| App.ClassifyInitError | frontend/src/App.js:86-93 | a PKCE error (`code_challenge_method` in the message) goes to login; any other error is shown with its message, or a default text when it has none |
| App.AppState.constructor | frontend/src/App.js:29-31 | the app starts uninitialised, without an error and without an attempt |
| App.AppState.InitEffect | frontend/src/App.js:57-95 | initialisation is skipped inside the iframe or with a query or fragment, and runs at most once; success marks the app initialised; a PKCE failure clears the address and goes to login; another failure records its message |
| App.PrivateRoute | frontend/src/App.js:101-106 | children render exactly when logged in; otherwise navigate to `/login` |
| App.AdminRoute | frontend/src/App.js:109-114 | children render exactly when logged in with the client role `admin`; otherwise navigate to `/dashboard` |
| App.AdminImpliesPrivate | frontend/src/App.js:101-114 | whatever the admin guard lets through, the private guard lets through |
| App.AdminRouteWithoutSession | frontend/src/App.js:101-114 | before `init` the admin guard sends to `/dashboard`, and the private guard sends to `/login` |
| App.RouteFor | frontend/src/App.js:171-199 | paths are compared ignoring letter case and trailing slashes; no page other than login is shown without a session; a logged-in user gets Dashboard, DocumentList, UploadDocument or Profile on its path, a logged-out one is sent to `/login`; `/` goes to `/dashboard`; `/login` shows the login page; other paths match nothing |
| App.RouteIgnoresTrailingSlash | frontend/src/App.js:171-199 | appending a slash to a path does not change the route it reaches |
| App.RouteIgnoresCase | frontend/src/App.js:171-199 | paths equal up to letter case reach the same route |
| App.RouteOfUpper | frontend/src/App.js:171-199 | an upper-cased path reaches the same route as the path |
| App.ScreenFor | frontend/src/App.js:117-163 | iframe ⇒ processing screen; else a non-empty error ⇒ error screen with that message; else initialised ⇒ routed app; else the initialising screen |
| App.InitErrorIsShown | frontend/src/App.js:93-131 | every non-PKCE initialisation failure ends on the error screen |
| ApiService.BaseUrl | frontend/src/services/ApiService.js:5-7 | the API base is the environment value when set and non-empty, else `http://localhost:3001/api` |
| ApiService.GetDocuments | frontend/src/services/ApiService.js:50-52 | `GET /documents` with no form field |
| ApiService.UploadDocument | frontend/src/services/ApiService.js:55-64 | `POST /documents` with the file in the multipart field `document` |
| ApiService.DeleteDocument | frontend/src/services/ApiService.js:67-69 | `DELETE /documents/<name>` |
| ApiService.GetDocumentUrl | frontend/src/services/ApiService.js:72-74 | the download URL is the base exactly as configured (a trailing `/` kept), then `/documents/`, then the file name, unchanged |
| ApiService.DownloadAndDeleteAgree | frontend/src/services/ApiService.js:67-74 | for a base URL not ending in `/` (the default one, say), the download URL is the URL the delete request is sent to |
| ApiService.AxiosUrl | frontend/src/services/ApiService.js:5-7 | a relative request URL is joined to the base with exactly one `/`: all leading slashes of the path are dropped, and of the base a trailing `//` is dropped whole, a single trailing `/` is dropped, and a base without one is kept; an empty URL gives the base |
| ApiService.DownloadAndDeleteDisagree | frontend/src/services/ApiService.js:67-74 | for a base URL ending in `/`, the download URL differs from the URL the delete goes to |
| ApiService.TrailingSlashBackendExample | frontend/src/services/ApiService.js:67-74 | with base `http://h/api/`, the download link is `http://h/api//documents/f` while the delete goes to `http://h/api/documents/f` |
| ApiService.DocumentUrlJoined | frontend/src/services/ApiService.js:72-74 | a download URL joined the way axios joins request URLs is the delete URL for every base, and equals the template URL when the base has no trailing slash |
| ApiService.DocumentUrlInjective | frontend/src/services/ApiService.js:72-74 | distinct file names give distinct download URLs |
| ApiService.ErrorText | frontend/src/pages/DocumentList.js:61 | the server's `message` is preferred when non-empty; otherwise the transport error message |
| ApiService.BearerValue | frontend/src/services/ApiService.js:25 | the header is `Bearer ` plus the token, or `Bearer undefined` when there is none |
| ApiService.AttachToken | frontend/src/services/ApiService.js:23-26 | when logged in, `Authorization` carries the bearer token; every other header is kept; logged out, headers are untouched |
| ApiService.NoSessionNoBearer | frontend/src/services/ApiService.js:23-26 | without a client no header is added |
| ApiService.RequestConfig.constructor | frontend/src/services/ApiService.js:11 | a request configuration holds the given headers |
| ApiService.InterceptRequest | frontend/src/services/ApiService.js:11-29 | a refresh (5 s) is requested exactly when logged in with an expired token; a failed refresh starts login and rejects the request with headers unchanged; otherwise the request is sent with the current (refreshed) bearer token |
| ApiService.OnResponseError | frontend/src/services/ApiService.js:38-44 | login starts exactly on status 401, and the error is always rejected unchanged |
| ApiService.FreshTokenAttachedWithoutRefresh | frontend/src/services/ApiService.js:13-26 | a logged-in client whose token is not expired gets its own token attached |
| Documents.Insert | frontend/src/pages/DocumentList.js:20-22 | inserting into a newest-first list keeps it newest-first and adds exactly one element |
| Documents.SortNewestFirst | frontend/src/pages/DocumentList.js:20-22 | the result is ordered newest-first and is a permutation of the input |
| Documents.InsertStable | frontend/src/pages/DocumentList.js:20-22 | insertion puts the new document before existing ones with the same timestamp |
| Documents.SortStable | frontend/src/pages/DocumentList.js:20-22 | documents with equal upload times keep their relative order |
| Documents.SortKeepsSorted | frontend/src/pages/Dashboard.js:26-28 | sorting an already newest-first list changes nothing |
| DocumentList.Extension | frontend/src/pages/DocumentList.js:68 | the extension is the longest dot-free suffix: the whole name when there is no dot, else what follows the last dot |
| DocumentList.ExtensionWithoutDot | frontend/src/pages/DocumentList.js:68 | a name without a dot is its own extension |
| DocumentList.ExtensionOfDotted | frontend/src/pages/DocumentList.js:68 | the extension of stem.ext is ext |
| DocumentList.ExtensionOfLower | frontend/src/pages/DocumentList.js:68 | lower-casing the name and taking the extension commute |
| DocumentList.IconFor | frontend/src/pages/DocumentList.js:70-89 | `pdf` gets the PDF icon, `doc`/`docx` Word, `xls`/`xlsx` Excel, `ppt`/`pptx` PowerPoint, `jpg`/`jpeg`/`png`/`gif` image; exactly the other extensions get the generic icon |
| DocumentList.GetFileIcon | frontend/src/pages/DocumentList.js:67-89 | a file gets the generic icon exactly when its lower-cased extension is none of the eleven known ones |
| DocumentList.FileIconIgnoresCase | frontend/src/pages/DocumentList.js:67-89 | names equal up to case get the same icon |
| DocumentList.FileIconOfUpper | frontend/src/pages/DocumentList.js:67-89 | upper-casing a name does not change its icon |
| DocumentList.PdfIcon | frontend/src/pages/DocumentList.js:67-89 | `report.pdf` gets the PDF icon |
| DocumentList.UpperCaseWordIcon | frontend/src/pages/DocumentList.js:67-89 | `NOTES.DOCX` gets the Word icon |
| DocumentList.NoDotIcon | frontend/src/pages/DocumentList.js:67-89 | a name without a dot is its own extension, so one of any length but 3 or 4 (`README`, say) gets the generic icon |
| DocumentList.ShowDeleteButton | frontend/src/pages/DocumentList.js:12 | the delete button shows exactly when `admin` is among the client roles |
| DocumentList.DocumentListPage.constructor | frontend/src/pages/DocumentList.js:7-10 | the page starts loading, with no documents, error or success message |
| DocumentList.DocumentListPage.FetchDocuments | frontend/src/pages/DocumentList.js:14-30 | issues `GET /documents`; on success shows the list newest-first, on failure keeps the list and shows the fetch error; loading ends either way |
| DocumentList.DocumentListPage.HandleDelete | frontend/src/pages/DocumentList.js:49-65 | nothing happens unless confirmed; otherwise `DELETE` is sent; success shows the deleted message and refetches; failure shows the server's error text |
| DocumentList.DocumentListPage.ClearSuccessMessage | frontend/src/pages/DocumentList.js:97 | dismissing the success alert clears it |
| DocumentList.DocumentListPage.DismissError | frontend/src/pages/DocumentList.js:103 | dismissing the error alert clears it |
| Profile.ClaimsOf | frontend/src/pages/Profile.js:7 | the parsed token's claims, or no claims when there is no parsed token |
| Profile.ExpiryMillis | frontend/src/pages/Profile.js:111 | the expiry in milliseconds is the `exp` claim (seconds) times 1000, and absent when `exp` is |
| Profile.ProfileOf | frontend/src/pages/Profile.js:7-14 | username defaults to `User`, email to `Not provided`, names to empty; roles are the client roles |
| Profile.GetInitials | frontend/src/pages/Profile.js:17-24 | both names ⇒ their upper-cased first letters; else the username's upper-cased first letter; else `U` |
| Profile.InitialsOfProfile | frontend/src/pages/Profile.js:10-24 | with upper-casing that maps one character to one (as ASCII upper-casing does), the avatar shows one or two characters, and `U` without a parsed token |
| Profile.GetRoleBadgeVariant | frontend/src/pages/Profile.js:27-38 | admin ⇒ danger, editor ⇒ warning, user ⇒ info, compared case-insensitively; any other role ⇒ secondary |
| Profile.BadgeIgnoresCase | frontend/src/pages/Profile.js:27-28 | upper- or lower-casing a role does not change its badge |
| Profile.RealmRolesDisplayOnly | frontend/src/pages/Profile.js:91-106 | realm roles appear on the profile but do not change the client roles it shows |
| Dashboard.RecentDocuments | frontend/src/pages/Dashboard.js:26-29 | the first min(3, n) documents of the newest-first copy: at most three, newest-first, drawn from the list |
| Dashboard.RecentAreNewest | frontend/src/pages/Dashboard.js:26-29 | no document left out of the recent list is newer than one in it |
| Dashboard.RecentOfFew | frontend/src/pages/Dashboard.js:29 | with three documents or fewer, all of them are shown |
| Dashboard.RecentKeepsListOrder | frontend/src/pages/Dashboard.js:26-29 | among documents with the same upload time, the recent list keeps the first ones, in the order the list gave them |
| Dashboard.RoleLine | frontend/src/pages/Dashboard.js:48 | exactly `Role: ` for one role and `Roles: ` otherwise, followed by the roles joined with `, ` |
| Dashboard.RoleLineOfTwo | frontend/src/pages/Dashboard.js:48 | two roles read `Roles: a, b` |
| Dashboard.WelcomeNameIsFullName | frontend/src/pages/Dashboard.js:46 | the `|| 'User'` fallback in the welcome line never fires, because the full name is never empty |
| Dashboard.DashboardPage.constructor | frontend/src/pages/Dashboard.js:8-11 | the dashboard starts loading with no documents |
| Dashboard.DashboardPage.FetchData | frontend/src/pages/Dashboard.js:17-37 | issues `GET /documents`; on success the count is the list length and the recent list is the newest three; on failure an error is shown; loading ends either way |
| UploadDocument.NextProgress | frontend/src/pages/UploadDocument.js:57-60 | one firing moves progress up by 10, capped at 90 |
| UploadDocument.ProgressAfter | frontend/src/pages/UploadDocument.js:56-61 | the simulated progress after n firings is a multiple of 10 between 0 and 90, and positive once the interval has fired |
| UploadDocument.ProgressAfterClosedForm | frontend/src/pages/UploadDocument.js:56-61 | after n firings progress is min(10·n, 90) |
| UploadDocument.ProgressMonotone | frontend/src/pages/UploadDocument.js:56-61 | simulated progress never decreases and stays within 0..90 |
| UploadDocument.UploadForm.constructor | frontend/src/pages/UploadDocument.js:7-11 | the form starts with no file, not dragging, not uploading, no error, progress 0 and no interval |
| UploadDocument.UploadForm.HandleDrag | frontend/src/pages/UploadDocument.js:16-25 | drag enter or over activates the drop zone, drag leave deactivates it, other events leave it alone |
| UploadDocument.UploadForm.HandleDrop | frontend/src/pages/UploadDocument.js:27-35 | a drop deactivates the zone and selects the first dropped file, if any |
| UploadDocument.UploadForm.HandleFileChange | frontend/src/pages/UploadDocument.js:37-41 | choosing files selects the first one, if any |
| UploadDocument.UploadForm.SubmitDisabled | frontend/src/pages/UploadDocument.js:146 | the upload button is enabled only with a file chosen and no upload in flight |
| UploadDocument.UploadForm.IntervalFires | frontend/src/pages/UploadDocument.js:56-61 | a live interval's firing applies one progress step |
| UploadDocument.UploadForm.HandleUpload | frontend/src/pages/UploadDocument.js:43-77 | without a file only the error is set; with one, `POST` is sent with progress min(10·ticks, 90) meanwhile; success clears the interval and sets 100; failure shows the error text and leaves the interval live |
| UploadDocument.UploadForm.HandleUploadClearingInterval | frontend/src/pages/UploadDocument.js:43-77 | as `HandleUpload`, but the interval is cleared whichever way the upload settles, so no interval outlives it |
| UploadDocument.RetryAfterFailedUpload | frontend/src/pages/UploadDocument.js:56-66 | after a failed upload and a successful retry, progress shows 100 and then drops to 90 when the leaked interval fires |
| UploadDocument.RetryAfterFailedUploadCorrected | frontend/src/pages/UploadDocument.js:56-66 | with the corrected handler the same sequence ends at 100 with no live interval |

## Left out

- Keycloak's protocol work is not modelled: redirects to the server, the PKCE exchange, token parsing, the silent-check iframe and the timing of its callbacks. The result of `keycloak.init`, of `updateToken` and of `logout` is an input.
- KeycloakService.Session.Init: after a rejected `keycloak.init` the model keeps the client value it had before the call. The client's own partial state after a failure is not visible from this code.
- `clearUrlParameters`, `isInSilentCheckIframe`, `initKeycloak`, `doLogin` and `doLogout` are called but not defined in `KeycloakService.js`. The iframe test is an input flag; the rest are reported as actions or results.
- The `hasAuthParams` test in `init` only feeds a log line, so it is not modelled. The same goes for all `console` output.
- App.ClassifyInitError: assumes that a rejection is an `Error` object whose `message` may be missing or empty. A rejection with no value at all, where reading `.message` would throw, is not modelled.
- `window.location.href` assignments, `history.replaceState`, `navigate(...)` and `setTimeout` delays are returned as decisions. Navigation itself and the timing are not modelled.
- UploadDocument.UploadForm.HandleUpload: the 300 ms interval is modelled as a count of firings before the upload settles. Wall-clock time is not modelled.
- Each asynchronous handler runs to completion in one step. Interleavings of two handlers, such as a delete while a fetch is still in flight or unmount during upload, are not modelled.
- The refetch after a successful delete is reported as a second request. Its own outcome is a separate `FetchDocuments` call.
- DocumentList.GetFileIcon: case mapping covers ASCII letters only. `toLowerCase` on other scripts is not modelled.
- Profile.GetInitials: upper-casing covers ASCII letters only. Non-ASCII initials are kept as they are.
- Profile.InitialsOfProfile: the one-or-two-character bound holds only under the model's ASCII upper-casing. JavaScript's `toUpperCase` can lengthen a character: `ß` becomes `SS`, so two names starting with `ß` show `SSSS`.
- Profile.GetRoleBadgeVariant: compares roles case-insensitively for ASCII letters only.
- Dates are integers (milliseconds). Parsing `uploadedAt` strings, invalid dates (NaN in the comparator) and `toLocaleString` formatting are not modelled.
- The file size display in `UploadDocument.js` uses floating-point division, so it is not modelled.
- The `handleDownload` anchor element is not modelled, beyond the URL it opens (`GetDocumentUrl`).
- JSX markup, Bootstrap styling and icons other than their class names are not modelled.
- The axios transport is not modelled: multipart encoding, upload progress events and network errors beyond their `status` and messages.
- Successful responses pass through the response interceptor unchanged, so no member models that path.
- App.RouteFor: percent-encoded characters in the path are not decoded before matching.
- `AdminRoute` is defined in `App.js` but used by no route. It is modelled as written, and `RouteFor` does not use it.
- `LoginPage.js`, `NavBar.js` and the backend in `backend/src/index.js` are not part of this model.
- The server-side checks (JWT validation and the `admin` requirement on delete) are not part of this model.
- `init` in `KeycloakService.js:15-83` has no guard against a second call while the first is still pending, no time-out on the client's `init`, and no purge of stored auth artefacts. The model adds none of these: `Session.Init` takes the client's answer as an input.

## Findings

| source | as written | input that shows it | evidently intended | confidence | as-written member | corrected member |
|---|---|---|---|---|---|---|
| frontend/src/pages/UploadDocument.js:56-75 | the progress interval is cleared only after a successful upload; the `catch` branch leaves it running | upload a file and have the request fail, then upload again and have it succeed: the first interval is still live, and its next firing turns the completed 100 % back into 90 % | clear the interval however the upload settles (for example in a `finally`) | medium, not executed | UploadDocument.RetryAfterFailedUpload | UploadDocument.UploadForm.HandleUploadClearingInterval |
| frontend/src/services/ApiService.js:72-74 | the download link is the template `${apiClient.defaults.baseURL}/documents/${filename}`, while requests go through axios, which drops a trailing `/` of the base before adding its own | `REACT_APP_BACKEND_URL=http://h/api/`: the delete goes to `http://h/api/documents/f`, the download link to `http://h/api//documents/f` | build the link the way axios joins the base and the path, so download and delete name the same URL for every base | low, not executed; the default base has no trailing slash and many servers accept the double slash | ApiService.DownloadAndDeleteDisagree | ApiService.DocumentUrlJoined |

=== FILE: ApiService.dfy ===
/**
 * The HTTP layer towards the backend: the request interceptor that refreshes
 * an expired token and attaches it as a bearer token, the response interceptor
 * that answers a 401 by starting a login, and the document endpoints.
 * Transport is not modelled: a request is the value describing it, and the
 * answers of the client's `updateToken` and of the server are parameters.
 * `doLogin` is called on the service but not defined there; the model reports
 * that it was called.
 */
module ApiService {
  import opened Wrappers
  import opened KeycloakService

  const DefaultBaseUrl := "http://localhost:3001/api"

  /** The base URL of every request: `REACT_APP_BACKEND_URL`, or the local backend. */
  function BaseUrl(env: Option<string>): (r: string)
    ensures env.None? || env.value == "" ==> r == DefaultBaseUrl
    ensures env.Some? && env.value != "" ==> r == env.value
  {
    OrElse(env, DefaultBaseUrl)
  }

  /** A request as the document endpoints describe it, relative to the base URL. */
  datatype Request = Request(verb: string, path: string, formField: Option<string>)

  const DocumentsPath := "/documents"

  /** `getDocuments()`. */
  function GetDocuments(): (r: Request)
    ensures r.verb == "GET" && r.path == DocumentsPath && r.formField.None?
  {
    Request("GET", DocumentsPath, None)
  }

  /** `uploadDocument(file)`: a multipart POST carrying the file in the field `document`. */
  function UploadDocument(): (r: Request)
    ensures r.verb == "POST" && r.path == DocumentsPath && r.formField == Some("document")
  {
    Request("POST", DocumentsPath, Some("document"))
  }

  /** `deleteDocument(filename)`: a DELETE on `/documents/<filename>`. */
  function DeleteDocument(filename: string): (r: Request)
    ensures r.verb == "DELETE" && r.formField.None?
    ensures r.path == DocumentsPath + "/" + filename
  {
    Request("DELETE", DocumentsPath + "/" + filename, None)
  }

  /** `getDocumentUrl(filename)`: the absolute URL used to download a document. */
  function GetDocumentUrl(baseUrl: string, filename: string): (r: string)
    ensures |r| == |baseUrl| + |"/documents/"| + |filename|
    ensures r[..|baseUrl|] == baseUrl && r[|baseUrl| + |"/documents/"|..] == filename
    ensures r[|baseUrl|..|baseUrl| + |"/documents/"|] == "/documents/"
  {
    baseUrl + "/documents/" + filename
  }

  /** Drops the slashes at the start of a relative URL. */
  function TrimLeadingSlashes(url: string): (r: string)
    ensures |r| <= |url| && r == url[|url| - |r|..]
    ensures r == [] || r[0] != '/'
    ensures forall i :: 0 <= i < |url| - |r| ==> url[i] == '/'
  {
    if url != [] && url[0] == '/' then TrimLeadingSlashes(url[1..]) else url
  }

  /**
   * The URL axios requests for a relative `url` under `baseURL`: one or two
   * slashes at the end of the base are dropped (`/\/?\/$/`), the slashes at
   * the start of `url` too, and the two are joined by a single `/`.
   */
  function AxiosUrl(baseUrl: string, url: string): (r: string)
    ensures url == [] ==> r == baseUrl
    ensures url != [] && (baseUrl == [] || baseUrl[|baseUrl| - 1] != '/') ==>
      r == baseUrl + "/" + TrimLeadingSlashes(url)
    ensures url != [] && |baseUrl| >= 2 && baseUrl[|baseUrl| - 2..] == "//" ==>
      r == baseUrl[..|baseUrl| - 2] + "/" + TrimLeadingSlashes(url)
    ensures (url != [] && baseUrl != [] && baseUrl[|baseUrl| - 1] == '/' &&
             !(|baseUrl| >= 2 && baseUrl[|baseUrl| - 2..] == "//")) ==>
      r == baseUrl[..|baseUrl| - 1] + "/" + TrimLeadingSlashes(url)
    ensures url != [] && |baseUrl| >= 1 && baseUrl[|baseUrl| - 1] == '/' ==> |r| < |baseUrl| + 1 + |TrimLeadingSlashes(url)|
  {
    if url == [] then baseUrl
    else
      var b :=
        if |baseUrl| >= 2 && baseUrl[|baseUrl| - 2..] == "//" then baseUrl[..|baseUrl| - 2]
        else if |baseUrl| >= 1 && baseUrl[|baseUrl| - 1] == '/' then baseUrl[..|baseUrl| - 1]
        else baseUrl;
      b + "/" + TrimLeadingSlashes(url)
  }

  /** The URL a request is sent to. */
  function RequestUrl(baseUrl: string, request: Request): string
  {
    AxiosUrl(baseUrl, request.path)
  }

  /** Relative to the base, a delete goes to `/documents/<name>`: the leading slash is the only one dropped. */
  lemma DeletePathTrimmed(filename: string)
    ensures TrimLeadingSlashes(DeleteDocument(filename).path) == "documents/" + filename
  {
    var p := DeleteDocument(filename).path;
    assert p == "/" + ("documents/" + filename);
    assert p[1..] == "documents/" + filename;
    assert p[1..][0] == 'd';
  }

  /**
   * For a base URL that does not end in a slash (the default one, say), the
   * download URL is the URL the delete request is sent to.
   */
  lemma DownloadAndDeleteAgree(baseUrl: string, filename: string)
    requires baseUrl == [] || baseUrl[|baseUrl| - 1] != '/'
    ensures GetDocumentUrl(baseUrl, filename) == RequestUrl(baseUrl, DeleteDocument(filename))
  {
    DeletePathTrimmed(filename);
    assert baseUrl + "/" + ("documents/" + filename) == baseUrl + "/documents/" + filename;
  }

  /**
   * For a base URL ending in a slash the two part ways: axios drops that
   * slash for the delete, the download template keeps it and adds another.
   */
  lemma DownloadAndDeleteDisagree(baseUrl: string, filename: string)
    requires baseUrl != [] && baseUrl[|baseUrl| - 1] == '/'
    ensures GetDocumentUrl(baseUrl, filename) != RequestUrl(baseUrl, DeleteDocument(filename))
  {
    DeletePathTrimmed(filename);
  }

  /** A concrete instance: a backend URL configured as `http://h/api/`. */
  lemma TrailingSlashBackendExample()
    ensures GetDocumentUrl("http://h/api/", "f") == "http://h/api//documents/f"
    ensures RequestUrl("http://h/api/", DeleteDocument("f")) == "http://h/api/documents/f"
  {
    DeletePathTrimmed("f");
    assert "http://h/api/"[|"http://h/api/"| - 2..] == "i/";
    assert "http://h/api/"[..|"http://h/api/"| - 1] == "http://h/api";
  }

  /**
   * The download URL built the way axios joins the base and the path. The fix
   * is defined as the URL the delete request goes to; what it adds is that for
   * a base without a trailing slash it is the template URL the page builds.
   */
  function DocumentUrlJoined(baseUrl: string, filename: string): (r: string)
    ensures r == RequestUrl(baseUrl, DeleteDocument(filename))
    ensures baseUrl == [] || baseUrl[|baseUrl| - 1] != '/' ==> r == GetDocumentUrl(baseUrl, filename)
  {
    if baseUrl == [] || baseUrl[|baseUrl| - 1] != '/' then
      DownloadAndDeleteAgree(baseUrl, filename);
      AxiosUrl(baseUrl, DocumentsPath + "/" + filename)
    else
      AxiosUrl(baseUrl, DocumentsPath + "/" + filename)
  }

  /** Different file names give different download URLs. */
  lemma DocumentUrlInjective(baseUrl: string, f: string, g: string)
    requires GetDocumentUrl(baseUrl, f) == GetDocumentUrl(baseUrl, g)
    ensures f == g
  {
    var u := GetDocumentUrl(baseUrl, f);
    assert f == u[|baseUrl| + |"/documents/"|..];
  }

  /** An axios error: the HTTP status and body message when a response arrived, and its own message. */
  datatype AxiosError = AxiosError(status: Option<int>, dataMessage: Option<string>, message: string)

  /** `err.response?.data?.message || err.message`: the server's message when it sent one. */
  function ErrorText(e: AxiosError): (r: string)
    ensures e.dataMessage.Some? && e.dataMessage.value != "" ==> r == e.dataMessage.value
    ensures e.dataMessage.None? || e.dataMessage.value == "" ==> r == e.message
  {
    if e.dataMessage.Some? && e.dataMessage.value != "" then e.dataMessage.value else e.message
  }

  // ---------------------------------------------------------------------------
  // Interceptors
  // ---------------------------------------------------------------------------

  /** `` `Bearer ${getToken()}` ``: a missing token is rendered as the text `undefined`. */
  function BearerValue(token: Option<string>): (r: string)
    ensures token.Some? ==> r == "Bearer " + token.value
    ensures token.None? ==> r == "Bearer undefined"
  {
    "Bearer " + (if token.Some? then token.value else "undefined")
  }

  /**
   * The headers after the interceptor's second step: `Authorization` carries
   * the bearer token exactly when the user is logged in; no other header changes.
   */
  function AttachToken(headers: map<string, string>, inst: Option<Client>): (r: map<string, string>)
    ensures IsLoggedIn(inst) ==> "Authorization" in r && r["Authorization"] == BearerValue(GetToken(inst))
    ensures !IsLoggedIn(inst) ==> r == headers
    ensures r.Keys == headers.Keys || r.Keys == headers.Keys + {"Authorization"}
    ensures forall k :: k in headers && k != "Authorization" ==> k in r && r[k] == headers[k]
  {
    if IsLoggedIn(inst) then headers["Authorization" := BearerValue(GetToken(inst))] else headers
  }

  /** Without a session, no header is attached. */
  lemma NoSessionNoBearer(headers: map<string, string>)
    ensures AttachToken(headers, None) == headers
  {
  }

  /** The request configuration the interceptor rewrites in place. */
  class RequestConfig {
    var headers: map<string, string>

    constructor (headers: map<string, string>)
      ensures this.headers == headers
    {
      this.headers := headers;
    }
  }

  /** What becomes of a request that passes the interceptor. */
  datatype RequestOutcome = Send | Reject(error: JsError)

  /**
   * The request interceptor. A refresh is asked for (`updateToken()`, so a
   * minimum validity of 5 seconds) only when the user is logged in and the
   * token has expired; `refreshed` is the client as that refresh leaves it, or
   * the refresh error. A failed refresh starts a login and rejects the request
   * with the refresh error, headers untouched. Otherwise the bearer token of
   * the (possibly refreshed) client is attached when logged in.
   */
  method InterceptRequest(config: RequestConfig, inst: Option<Client>, refreshed: Result<Client, JsError>)
    returns (outcome: RequestOutcome, refresh: Option<TokenCall>, loginStarted: bool)
    modifies config
    ensures refresh.Some? <==> IsLoggedIn(inst) && IsTokenExpired(inst)
    ensures refresh.Some? ==> refresh.value == UpdateToken(inst, None) == RefreshRequested(5)
    ensures loginStarted <==> refresh.Some? && refreshed.Failure?
    ensures loginStarted ==> outcome == Reject(refreshed.error) && config.headers == old(config.headers)
    ensures !loginStarted ==> outcome == Send
    ensures !loginStarted && refresh.Some? ==> config.headers == AttachToken(old(config.headers), Some(refreshed.value))
    ensures refresh.None? ==> config.headers == AttachToken(old(config.headers), inst)
  {
    var current := inst;
    refresh, loginStarted := None, false;
    if IsLoggedIn(inst) && IsTokenExpired(inst) {
      refresh := Some(UpdateToken(inst, None));
      match refreshed {
        case Failure(e) =>
          loginStarted := true;
          return Reject(e), refresh, loginStarted;
        case Success(c) =>
          current := Some(c);
      }
    }
    if IsLoggedIn(current) {
      config.headers := config.headers["Authorization" := BearerValue(GetToken(current))];
    }
    outcome := Send;
  }

  /** How the response interceptor handles a failed response. */
  datatype ErrorHandling = ErrorHandling(loginStarted: bool, rejection: AxiosError)

  /**
   * The response interceptor's error path: a 401 starts a login; every error,
   * 401 or not, is passed on unchanged as a rejection. Successful responses
   * pass through untouched.
   */
  function OnResponseError(e: AxiosError): (r: ErrorHandling)
    ensures r.loginStarted <==> e.status == Some(401)
    ensures r.rejection == e
  {
    ErrorHandling(e.status.Some? && e.status.value == 401, e)
  }

  /** A logged-in user whose token has not expired gets the bearer header without a refresh. */
  lemma FreshTokenAttachedWithoutRefresh(headers: map<string, string>, c: Client)
    requires c.authenticated && !c.tokenExpired && c.token.Some?
    ensures !IsTokenExpired(Some(c))
    ensures AttachToken(headers, Some(c))["Authorization"] == "Bearer " + c.token.value
  {
  }
}

=== FILE: App.dfy ===
/**
 * The application root: cleaning redirect artifacts out of the address, the
 * once-only initialization effect, the two route guards and the choice of
 * screen. The redirect artifacts are the parameters of an OAuth 2.0
 * authorization error response (section 4.1.2.1 of RFC 6749, `error=`) and the
 * PKCE `code_challenge_method` parameter (section 4.3 of RFC 7636).
 *
 * `isInSilentCheckIframe`, `clearUrlParameters` and `initKeycloak` are called on
 * the service but are not defined there: the first is an input flag, the
 * second an action this model reports, the third's outcome is an input.
 */
module App {
  import opened Wrappers
  import opened Text
  import opened KeycloakService

  // ---------------------------------------------------------------------------
  // Address clean-up when the module is loaded
  // ---------------------------------------------------------------------------

  /** The address carries an error response or a PKCE marker somewhere in its text. */
  predicate HasLoadArtifact(loc: Location)
  {
    Contains(loc.Href(), "error=") || Contains(loc.Href(), "code_challenge_method")
  }

  /**
   * The clean-up run when the module is loaded: with an artifact anywhere in the
   * address, query and fragment are emptied; origin and path always stay.
   */
  function CleanAtLoad(loc: Location): (r: Location)
    ensures r.origin == loc.origin && r.pathname == loc.pathname
    ensures HasLoadArtifact(loc) ==> r.search == "" && r.hash == ""
    ensures !HasLoadArtifact(loc) ==> r == loc
  {
    if HasLoadArtifact(loc) then loc.(search := "", hash := "") else loc
  }

  /** Running the clean-up on its own output changes nothing. */
  lemma CleanAtLoadIdempotent(loc: Location)
    ensures CleanAtLoad(CleanAtLoad(loc)) == CleanAtLoad(loc)
  {
  }

  /** After the clean-up, an artifact can remain only in the origin or the path. */
  lemma ArtifactAfterCleanAtLoad(loc: Location)
    requires HasLoadArtifact(CleanAtLoad(loc))
    ensures Contains(loc.origin + loc.pathname, "error=") || Contains(loc.origin + loc.pathname, "code_challenge_method")
  {
    assert HasLoadArtifact(loc);
    assert CleanAtLoad(loc).Href() == loc.origin + loc.pathname;
  }

  /** Whatever occurs in the query or the fragment occurs in the whole address. */
  lemma PartsOfHref(loc: Location, p: string)
    ensures Contains(loc.search, p) ==> Contains(loc.Href(), p)
    ensures Contains(loc.hash, p) ==> Contains(loc.Href(), p)
  {
    if Contains(loc.search, p) {
      ContainsInMiddle(loc.origin + loc.pathname, loc.search, loc.hash, p);
    }
    if Contains(loc.hash, p) {
      ContainsInMiddle(loc.origin + loc.pathname + loc.search, loc.hash, "", p);
      assert loc.origin + loc.pathname + loc.search + loc.hash + "" == loc.Href();
    }
  }

  // ---------------------------------------------------------------------------
  // The first effect: artifacts still present after mounting
  // ---------------------------------------------------------------------------

  /** What the first effect does. */
  datatype ArtifactAction =
    | LeaveAddress           // nothing to do (or running in the silent-check iframe)
    | ClearAndGoToLogin      // `clearUrlParameters()`, then `window.location.href = '/login'`
    | ClearOnly              // `clearUrlParameters()`

  /** The effect's artifact test: `error=` in the fragment or query, or the PKCE marker anywhere. */
  predicate HasEffectArtifact(loc: Location)
  {
    Contains(loc.hash, "error=") || Contains(loc.search, "error=") || Contains(loc.Href(), "code_challenge_method")
  }

  /**
   * The first effect: in the silent-check iframe it does nothing; an artifact
   * leads to a clean-up and a redirect to `/login`, and stops there; otherwise
   * a non-empty fragment alone is cleared.
   */
  function ArtifactEffect(inIframe: bool, loc: Location): (r: ArtifactAction)
    ensures inIframe ==> r == LeaveAddress
    ensures r == ClearAndGoToLogin <==> !inIframe && HasEffectArtifact(loc)
    ensures r == ClearOnly <==> !inIframe && !HasEffectArtifact(loc) && loc.hash != ""
  {
    if inIframe then LeaveAddress
    else if HasEffectArtifact(loc) then ClearAndGoToLogin
    else if loc.hash != "" then ClearOnly
    else LeaveAddress
  }

  /**
   * Once the module-load clean-up has run, the effect's redirect to `/login`
   * fires only for a PKCE marker in the origin or the path: whatever sat in the
   * fragment or the query has been removed already.
   */
  lemma {:induction false} EffectAfterCleanAtLoad(loc: Location)
    requires ArtifactEffect(false, CleanAtLoad(loc)) == ClearAndGoToLogin
    ensures Contains(loc.origin + loc.pathname, "code_challenge_method")
  {
    PartsOfHref(loc, "error=");
    assert HasLoadArtifact(loc);
    var c := CleanAtLoad(loc);
    assert c.search == "" && c.hash == "";
    assert !Contains(c.hash, "error=") && !Contains(c.search, "error=");
    assert c.Href() == loc.origin + loc.pathname;
  }

  /** The address of the example `/dashboard#error=invalid_request&state=abc123`. */
  function ErrorReturnExample(): Location
  {
    Location("http://localhost:3000", "/dashboard", "", "#" + "error=" + "invalid_request&state=abc123")
  }

  /** On that address the module-load clean-up empties the fragment, and the first effect then leaves it alone. */
  lemma ErrorReturnExampleCleaned()
    ensures CleanAtLoad(ErrorReturnExample()) == Location("http://localhost:3000", "/dashboard", "", "")
    ensures ArtifactEffect(false, CleanAtLoad(ErrorReturnExample())) == LeaveAddress
  {
    var loc := ErrorReturnExample();
    ContainsInMiddle("#", "error=", "invalid_request&state=abc123", "error=");
    PartsOfHref(loc, "error=");
    var c := CleanAtLoad(loc);
    assert c.hash == "" && c.search == "";
    NoCharNoContains("http://localhost:3000" + "/dashboard", "code_challenge_method", 4);
    assert c.Href() == "http://localhost:3000" + "/dashboard";
  }

  // ---------------------------------------------------------------------------
  // The initialization effect
  // ---------------------------------------------------------------------------

  const DefaultInitError := "Failed to initialize authentication"

  /** What the initialization effect ends in. */
  datatype InitAction =
    | InitSkipped           // in the iframe, or the address still has a query or fragment
    | AlreadyAttempted      // `initializationAttempted.current` was set
    | InitSucceeded         // `setKeycloakInitialized(true)`
    | PkceRedirect          // `clearUrlParameters()`, then `window.location.href = '/login'`
    | InitFailed            // `setInitializationError(...)`

  /** How a rejection of `initKeycloak` is reported: a PKCE error redirects, anything else is shown. */
  datatype InitErrorHandling = RedirectToLogin | ShowError(message: string)

  /**
   * The `catch` of the initialization: a message mentioning `code_challenge_method`
   * redirects to `/login` with no error state; any other rejection shows its
   * message, or the fixed fallback when the message is missing or empty.
   */
  function ClassifyInitError(e: JsError): (r: InitErrorHandling)
    ensures r.RedirectToLogin? <==> e.message.Some? && Contains(e.message.value, "code_challenge_method")
    ensures r.ShowError? ==> r.message != ""
    ensures r.ShowError? && e.message.Some? && e.message.value != "" ==> r.message == e.message.value
    ensures r.ShowError? && (e.message.None? || e.message.value == "") ==> r.message == DefaultInitError
  {
    if e.message.Some? && e.message.value != "" && Contains(e.message.value, "code_challenge_method") then
      RedirectToLogin
    else if e.message.Some? && e.message.value != "" then
      ShowError(e.message.value)
    else
      ShowError(DefaultInitError)
  }

  /** The React state of the root component. */
  class AppState {
    var keycloakInitialized: bool
    var initializationError: Option<string>
    var initializationAttempted: bool
    ghost var initAttempts: nat          // how many times `initKeycloak` has been called

    /** Initialization is attempted at most once, and exactly once after the flag is set. */
    ghost predicate Valid()
      reads this
    {
      initAttempts == (if initializationAttempted then 1 else 0)
    }

    constructor ()
      ensures Valid() && !keycloakInitialized && initializationError.None? && !initializationAttempted
    {
      keycloakInitialized := false;
      initializationError := None;
      initializationAttempted := false;
      initAttempts := 0;
    }

    /**
     * The initialization effect. It is skipped in the silent-check iframe and
     * while the address has a query or a fragment; it calls `initKeycloak` at
     * most once per mount; `outcome` is how that call settles.
     */
    method InitEffect(inIframe: bool, loc: Location, outcome: Result<(), JsError>) returns (action: InitAction)
      requires Valid()
      modifies this
      ensures Valid() && initAttempts <= 1
      ensures action == InitSkipped <==> inIframe || loc.hash != "" || loc.search != ""
      ensures action == AlreadyAttempted <==> action != InitSkipped && old(initializationAttempted)
      ensures action == InitSkipped || action == AlreadyAttempted ==>
        keycloakInitialized == old(keycloakInitialized) && initializationError == old(initializationError) &&
        initializationAttempted == old(initializationAttempted) && initAttempts == old(initAttempts)
      ensures action != InitSkipped && action != AlreadyAttempted ==>
        initializationAttempted && initAttempts == old(initAttempts) + 1 && !old(initializationAttempted)
      ensures action == InitSucceeded <==> action != InitSkipped && action != AlreadyAttempted && outcome.Success?
      ensures action == InitSucceeded ==> keycloakInitialized && initializationError == old(initializationError)
      ensures action == PkceRedirect <==>
        action != InitSkipped && action != AlreadyAttempted && outcome.Failure? && ClassifyInitError(outcome.error).RedirectToLogin?
      ensures action == PkceRedirect ==>
        keycloakInitialized == old(keycloakInitialized) && initializationError == old(initializationError)
      ensures action == InitFailed ==>
        outcome.Failure? && keycloakInitialized == old(keycloakInitialized) &&
        initializationError == Some(ClassifyInitError(outcome.error).message)
    {
      if inIframe || loc.hash != "" || loc.search != "" {
        return InitSkipped;
      }
      if initializationAttempted {
        return AlreadyAttempted;
      }
      initializationAttempted := true;
      initAttempts := initAttempts + 1;
      match outcome {
        case Success(_) =>
          keycloakInitialized := true;
          action := InitSucceeded;
        case Failure(e) =>
          match ClassifyInitError(e) {
            case RedirectToLogin =>
              action := PkceRedirect;
            case ShowError(message) =>
              initializationError := Some(message);
              action := InitFailed;
          }
      }
    }
  }

  // ---------------------------------------------------------------------------
  // Route guards, routes and the choice of screen
  // ---------------------------------------------------------------------------

  /** What a guard renders: the protected page, or a redirect. */
  datatype Guarded = RenderChildren | NavigateTo(path: string)

  /** `PrivateRoute`: the page for a logged-in user, `/login` for anyone else. */
  function PrivateRoute(inst: Option<Client>): (r: Guarded)
    ensures r == RenderChildren <==> IsLoggedIn(inst)
    ensures r != RenderChildren ==> r == NavigateTo("/login")
  {
    if !IsLoggedIn(inst) then NavigateTo("/login") else RenderChildren
  }

  /** `AdminRoute`: the page for a logged-in admin, `/dashboard` for anyone else, logged in or not. */
  function AdminRoute(inst: Option<Client>, clientId: string): (r: Guarded)
    ensures r == RenderChildren <==> IsLoggedIn(inst) && HasRole(inst, clientId, "admin")
    ensures r != RenderChildren ==> r == NavigateTo("/dashboard")
  {
    if !IsLoggedIn(inst) || !HasRole(inst, clientId, "admin") then NavigateTo("/dashboard") else RenderChildren
  }

  /** Whatever the admin guard lets through, the private guard lets through too. */
  lemma AdminImpliesPrivate(inst: Option<Client>, clientId: string)
    ensures AdminRoute(inst, clientId) == RenderChildren ==> PrivateRoute(inst) == RenderChildren
  {
  }

  /** The admin guard never sends to `/login`, not even a visitor without a session. */
  lemma AdminRouteWithoutSession(clientId: string)
    ensures AdminRoute(None, clientId) == NavigateTo("/dashboard")
    ensures PrivateRoute(None) == NavigateTo("/login")
  {
  }

  /** The pages of the routed UI. */
  datatype Page = LoginPage | Dashboard | DocumentList | UploadDocument | Profile

  /** What the router shows for a path. */
  datatype Element = Show(page: Page) | Redirect(to: string) | NoMatch

  /**
   * Drops the slashes at the end of a path, keeping a lone leading one: the
   * router's patterns accept any number of trailing slashes.
   */
  function TrimTrailingSlashes(path: string): (r: string)
    ensures |r| <= |path| && r == path[..|r|]
    ensures path != [] ==> r != []
    ensures |r| <= 1 || r[|r| - 1] != '/'
    ensures forall i :: |r| <= i < |path| ==> path[i] == '/'
    decreases |path|
  {
    if |path| > 1 && path[|path| - 1] == '/' then TrimTrailingSlashes(path[..|path| - 1]) else path
  }

  /**
   * The path as the router compares it with the route patterns: without
   * trailing slashes and, since routes are not case-sensitive by default, in
   * lower case. The patterns are lower-case ASCII, and the case-insensitive
   * comparison never equates a non-ASCII character with an ASCII one, so
   * ASCII lower-casing decides every match exactly.
   */
  function RoutePath(path: string): (r: string)
    ensures |r| <= |path|
    ensures path != [] ==> r != []
  {
    TrimTrailingSlashes(ToLower(path))
  }

  const PrivatePaths: set<string> := {"/dashboard", "/documents", "/upload", "/profile"}

  /** The route table; every page except the login page sits behind `PrivateRoute`. */
  function RouteFor(path: string, inst: Option<Client>): (r: Element)
    ensures r.Show? && r.page != LoginPage ==> IsLoggedIn(inst)
    ensures !IsLoggedIn(inst) && RoutePath(path) in PrivatePaths ==> r == Redirect("/login")
    ensures IsLoggedIn(inst) && RoutePath(path) == "/dashboard" ==> r == Show(Dashboard)
    ensures IsLoggedIn(inst) && RoutePath(path) == "/documents" ==> r == Show(DocumentList)
    ensures IsLoggedIn(inst) && RoutePath(path) == "/upload" ==> r == Show(UploadDocument)
    ensures IsLoggedIn(inst) && RoutePath(path) == "/profile" ==> r == Show(Profile)
    ensures RoutePath(path) == "/" ==> r == Redirect("/dashboard")
    ensures RoutePath(path) == "/login" ==> r == Show(LoginPage)
    ensures RoutePath(path) !in PrivatePaths + {"/", "/login"} ==> r == NoMatch
  {
    var p := RoutePath(path);
    var guarded := (page: Page) => if PrivateRoute(inst) == RenderChildren then Show(page) else Redirect("/login");
    if p == "/login" then Show(LoginPage)
    else if p == "/dashboard" then guarded(Dashboard)
    else if p == "/documents" then guarded(DocumentList)
    else if p == "/upload" then guarded(UploadDocument)
    else if p == "/profile" then guarded(Profile)
    else if p == "/" then Redirect("/dashboard")
    else NoMatch
  }

  /** A trailing slash does not change where a path leads. */
  lemma RouteIgnoresTrailingSlash(path: string, inst: Option<Client>)
    requires path != []
    ensures RouteFor(path + "/", inst) == RouteFor(path, inst)
  {
    ToLowerSnoc(path, '/');
    var l := ToLower(path);
    assert ToLower(path + "/") == l + "/";
    assert (l + "/")[..|l|] == l;
  }

  /** Paths that differ only in letter case lead to the same place. */
  lemma RouteIgnoresCase(a: string, b: string, inst: Option<Client>)
    requires ToLower(a) == ToLower(b)
    ensures RouteFor(a, inst) == RouteFor(b, inst)
  {
  }

  /** In particular an upper-cased path leads where the path does. */
  lemma RouteOfUpper(path: string, inst: Option<Client>)
    ensures RouteFor(ToUpper(path), inst) == RouteFor(path, inst)
  {
    ToLowerOfUpper(path);
  }

  /** The screen the root component renders. */
  datatype Screen = ProcessingAuthentication | AuthenticationError(message: string) | Initializing | RoutedApp

  /**
   * The render chain, in fixed priority: the silent-check iframe, then a
   * (non-empty) initialization error, then the spinner until initialized,
   * then the routed application.
   */
  function ScreenFor(inIframe: bool, initializationError: Option<string>, keycloakInitialized: bool): (r: Screen)
    ensures r == ProcessingAuthentication <==> inIframe
    ensures r.AuthenticationError? <==> !inIframe && initializationError.Some? && initializationError.value != ""
    ensures r.AuthenticationError? ==> r.message == initializationError.value
    ensures r == Initializing <==> !inIframe && (initializationError.None? || initializationError.value == "") && !keycloakInitialized
    ensures r == RoutedApp <==> !inIframe && (initializationError.None? || initializationError.value == "") && keycloakInitialized
  {
    if inIframe then ProcessingAuthentication
    else if initializationError.Some? && initializationError.value != "" then AuthenticationError(initializationError.value)
    else if !keycloakInitialized then Initializing
    else RoutedApp
  }

  /** An error set by the initialization effect is always shown outside the iframe, initialized or not. */
  lemma InitErrorIsShown(e: JsError, keycloakInitialized: bool)
    requires ClassifyInitError(e).ShowError?
    ensures ScreenFor(false, Some(ClassifyInitError(e).message), keycloakInitialized).AuthenticationError?
  {
  }
}

=== FILE: Dashboard.dfy ===
/**
 * The dashboard: the welcome line, the role line, the document count and the
 * three most recent documents.
 */
module Dashboard {
  import opened Wrappers
  import opened Text
  import opened KeycloakService
  import opened Documents
  import ApiService

  /** `sorted.slice(0, 3)` of the newest-first copy. */
  function RecentDocuments(docs: seq<Document>): (r: seq<Document>)
    ensures |r| == if |docs| < 3 then |docs| else 3
    ensures NewestFirst(r)
    ensures multiset(r) <= multiset(docs)
    ensures r == SortNewestFirst(docs)[..|r|]
  {
    var sorted := SortNewestFirst(docs);
    var n := if |docs| < 3 then |docs| else 3;
    assert sorted == sorted[..n] + sorted[n..];
    sorted[..n]
  }

  /** No document left out of the recent list is newer than any document in it. */
  lemma {:induction false} RecentAreNewest(docs: seq<Document>, d: Document, e: Document)
    requires d in RecentDocuments(docs)
    requires e in multiset(docs) - multiset(RecentDocuments(docs))
    ensures e.uploadedAt <= d.uploadedAt
  {
    var sorted := SortNewestFirst(docs);
    var n := |RecentDocuments(docs)|;
    assert RecentDocuments(docs) == sorted[..n];
    LeftOverOfPrefix(docs, sorted, n);
    PrefixIsNewest(sorted, n, d, e);
  }

  /** Taking a prefix of a permutation of `whole` leaves exactly the suffix over. */
  lemma LeftOverOfPrefix(whole: seq<Document>, s: seq<Document>, n: nat)
    requires n <= |s| && multiset(whole) == multiset(s)
    ensures multiset(whole) - multiset(s[..n]) == multiset(s[n..])
  {
    assert s == s[..n] + s[n..];
  }

  /** In a newest-first list, everything after the first `n` is no newer than anything in them. */
  lemma PrefixIsNewest(s: seq<Document>, n: nat, d: Document, e: Document)
    requires NewestFirst(s) && n <= |s|
    requires d in s[..n] && e in multiset(s[n..])
    ensures e.uploadedAt <= d.uploadedAt
  {
    assert e in s[n..];
    var j :| 0 <= j < |s[n..]| && s[n..][j] == e;
    var i :| 0 <= i < n && s[..n][i] == d;
    assert s[i] == d && s[n + j] == e;
  }

  /**
   * Among documents uploaded at the same time, the recent list keeps the first
   * ones in the order the backend listed them: the sort is stable and the
   * slice takes a prefix.
   */
  lemma RecentKeepsListOrder(docs: seq<Document>, t: int)
    ensures UploadedAt(RecentDocuments(docs), t) <= UploadedAt(docs, t)
  {
    var sorted := SortNewestFirst(docs);
    SortStable(docs, t);
    UploadedAtOfPrefix(sorted, |RecentDocuments(docs)|, t);
  }

  /** With three or fewer documents, all of them are recent. */
  lemma RecentOfFew(docs: seq<Document>)
    requires |docs| <= 3
    ensures multiset(RecentDocuments(docs)) == multiset(docs)
  {
    assert RecentDocuments(docs) == SortNewestFirst(docs);
  }

  /** `` `Role${roles.length !== 1 ? 's' : ''}: ${roles.join(', ')}` ``. */
  function RoleLine(roles: seq<string>): (r: string)
    ensures |r| >= (if |roles| != 1 then 7 else 6)
    ensures r[..4] == "Role"
    ensures r[4] == 's' <==> |roles| != 1
    ensures r == (if |roles| != 1 then "Roles: " else "Role: ") + Join(roles, ", ")
  {
    "Role" + (if |roles| != 1 then "s" else "") + ": " + Join(roles, ", ")
  }

  /** The role line lists the roles in order, each separated by a comma and a space. */
  lemma RoleLineOfTwo(a: string, b: string)
    ensures RoleLine([a, b]) == "Roles: " + a + ", " + b
  {
    assert [a, b][1..] == [b];
    assert Join([a, b], ", ") == a + ", " + b;
    assert "Role" + "s" + ": " == "Roles: ";
  }

  /** `fullName || 'User'`: the full name is never empty, so the welcome line shows it as it is. */
  lemma WelcomeNameIsFullName(inst: Option<Client>)
    ensures (if GetFullName(inst) != "" then GetFullName(inst) else "User") == GetFullName(inst)
  {
  }

  const FetchError := "Failed to fetch documents"

  /** The page's React state. */
  class DashboardPage {
    var documentCount: int
    var recentDocuments: seq<Document>
    var loading: bool
    var error: Option<string>

    constructor ()
      ensures documentCount == 0 && recentDocuments == [] && loading && error.None?
    {
      documentCount, recentDocuments, loading, error := 0, [], true, None;
    }

    /**
     * `fetchData()`, once the request has settled with `response`: the count
     * and the three newest documents on success, the fetch error on failure
     * (count and list kept); loading ends either way.
     */
    method FetchData(response: Result<seq<Document>, ApiService.AxiosError>) returns (request: ApiService.Request)
      modifies this
      ensures request == ApiService.GetDocuments()
      ensures !loading
      ensures response.Success? ==>
        documentCount == |response.value| && recentDocuments == RecentDocuments(response.value) && error == old(error)
      ensures response.Failure? ==>
        documentCount == old(documentCount) && recentDocuments == old(recentDocuments) && error == Some(FetchError)
    {
      loading := true;
      request := ApiService.GetDocuments();
      match response {
        case Success(data) =>
          documentCount := |data|;
          recentDocuments := RecentDocuments(data);
          loading := false;
        case Failure(_) =>
          error := Some(FetchError);
          loading := false;
      }
    }
  }
}

=== FILE: DocumentList.dfy ===
/**
 * The document list page: the file-type icon of each document, the state
 * updates of fetching and deleting, and the admin-only delete button.
 * `window.confirm` is an input flag; timers and downloads are not modelled.
 */
module DocumentList {
  import opened Wrappers
  import opened Text
  import opened KeycloakService
  import opened Documents
  import ApiService

  /**
   * `fileName.split('.').pop()`: the text after the last dot, or the whole
   * name when it has no dot. It is the longest dot-free suffix of the name.
   */
  function Extension(name: string): (r: string)
    ensures |r| <= |name| && r == name[|name| - |r|..]
    ensures '.' !in r
    ensures |r| == |name| || name[|name| - |r| - 1] == '.'
  {
    if name == [] || name[|name| - 1] == '.' then []
    else
      var r := Extension(name[..|name| - 1]) + [name[|name| - 1]];
      r
  }

  /** With no dot in the name, the extension is the whole name. */
  lemma ExtensionWithoutDot(name: string)
    requires '.' !in name
    ensures Extension(name) == name
  {
  }

  /** The extension of a name ending in `.ext` (with no dot in `ext`) is `ext`. */
  lemma {:induction false} ExtensionOfDotted(stem: string, ext: string)
    requires '.' !in ext
    ensures Extension(stem + "." + ext) == ext
  {
    var name := stem + "." + ext;
    assert name[|name| - |ext|..] == ext;
    assert name[|name| - |ext| - 1] == '.';
  }

  /** Lower-casing commutes with taking the extension, since the dot has no case. */
  lemma {:induction false} ExtensionOfLower(name: string)
    ensures Extension(ToLower(name)) == ToLower(Extension(name))
  {
    if name != [] {
      var init := name[..|name| - 1];
      var last := name[|name| - 1];
      assert name == init + [last];
      ToLowerSnoc(init, last);
      var lowered := ToLower(init) + [LowerChar(last)];
      assert ToLower(name) == lowered;
      assert lowered[..|lowered| - 1] == ToLower(init);
      if last == '.' {
        assert Extension(name) == [];
        assert Extension(lowered) == [];
      } else {
        assert Extension(name) == Extension(init) + [last];
        assert Extension(lowered) == Extension(ToLower(init)) + [LowerChar(last)];
        ExtensionOfLower(init);
        ToLowerSnoc(Extension(init), last);
      }
    }
  }

  const GenericIcon := "bi-file-earmark"

  /** The icon for a lower-case extension. */
  function IconFor(ext: string): (r: string)
    ensures r == GenericIcon <==> ext !in {"pdf", "doc", "docx", "xls", "xlsx", "ppt", "pptx", "jpg", "jpeg", "png", "gif"}
    ensures ext == "pdf" ==> r == "bi-file-earmark-pdf"
    ensures ext in {"doc", "docx"} ==> r == "bi-file-earmark-word"
    ensures ext in {"xls", "xlsx"} ==> r == "bi-file-earmark-excel"
    ensures ext in {"ppt", "pptx"} ==> r == "bi-file-earmark-ppt"
    ensures ext in {"jpg", "jpeg", "png", "gif"} ==> r == "bi-file-earmark-image"
  {
    match ext
    case "pdf" => "bi-file-earmark-pdf"
    case "doc" => "bi-file-earmark-word"
    case "docx" => "bi-file-earmark-word"
    case "xls" => "bi-file-earmark-excel"
    case "xlsx" => "bi-file-earmark-excel"
    case "ppt" => "bi-file-earmark-ppt"
    case "pptx" => "bi-file-earmark-ppt"
    case "jpg" => "bi-file-earmark-image"
    case "jpeg" => "bi-file-earmark-image"
    case "png" => "bi-file-earmark-image"
    case "gif" => "bi-file-earmark-image"
    case _ => GenericIcon
  }

  /** `getFileIcon(fileName)`: the icon for the lower-cased extension. */
  function GetFileIcon(name: string): (r: string)
    ensures r == GenericIcon <==> ToLower(Extension(name)) !in {"pdf", "doc", "docx", "xls", "xlsx", "ppt", "pptx", "jpg", "jpeg", "png", "gif"}
  {
    IconFor(ToLower(Extension(name)))
  }

  /** The icon does not depend on letter case: names equal up to case get the same icon. */
  lemma FileIconIgnoresCase(a: string, b: string)
    requires ToLower(a) == ToLower(b)
    ensures GetFileIcon(a) == GetFileIcon(b)
  {
    ExtensionOfLower(a);
    ExtensionOfLower(b);
  }

  /** In particular, upper-casing a name keeps its icon. */
  lemma FileIconOfUpper(name: string)
    ensures GetFileIcon(ToUpper(name)) == GetFileIcon(name)
  {
    ToLowerOfUpper(name);
    FileIconIgnoresCase(ToUpper(name), name);
  }

  /** A PDF gets the PDF icon. */
  lemma PdfIcon()
    ensures GetFileIcon("report.pdf") == "bi-file-earmark-pdf"
  {
    ExtensionOfDotted("report", "pdf");
    assert "report" + "." + "pdf" == "report.pdf";
    assert ToLower("pdf") == "pdf" by {
      assert ToLower("f") == "f";
      assert ToLower("df") == "df";
    }
  }

  /** An upper-case Word file gets the Word icon. */
  lemma UpperCaseWordIcon()
    ensures GetFileIcon("NOTES.DOCX") == "bi-file-earmark-word"
  {
    ExtensionOfDotted("NOTES", "DOCX");
    assert "NOTES" + "." + "DOCX" == "NOTES.DOCX";
    assert ToLower("DOCX") == "docx" by {
      assert ToLower("X") == "x";
      assert ToLower("CX") == "cx";
      assert ToLower("OCX") == "ocx";
    }
  }

  /**
   * Every known extension has three or four letters, so a name without a dot
   * and of any other length (`README`, say) gets the generic icon.
   */
  lemma NoDotIcon(name: string)
    requires '.' !in name && |name| != 3 && |name| != 4
    ensures GetFileIcon(name) == GenericIcon
  {
    ExtensionWithoutDot(name);
    var ext := ToLower(name);
    assert |ext| == |name|;
    assert ext !in {"pdf", "doc", "docx", "xls", "xlsx", "ppt", "pptx", "jpg", "jpeg", "png", "gif"};
  }

  /** Whether the delete button is shown: only for the `admin` client role. */
  function ShowDeleteButton(inst: Option<Client>, clientId: string): (r: bool)
    ensures r <==> "admin" in GetUserRoles(inst, clientId)
  {
    HasRole(inst, clientId, "admin")
  }

  const FetchError := "Failed to fetch documents"

  /** The page's React state. */
  class DocumentListPage {
    var documents: seq<Document>
    var loading: bool
    var error: Option<string>
    var successMessage: Option<string>

    constructor ()
      ensures documents == [] && loading && error.None? && successMessage.None?
    {
      documents, loading, error, successMessage := [], true, None, None;
    }

    /**
     * `fetchDocuments()`, once the request has settled with `response`: the
     * list becomes the fetched documents newest first; a failure sets the
     * fetch error and keeps the old list. Either way loading ends.
     */
    method FetchDocuments(response: Result<seq<Document>, ApiService.AxiosError>) returns (request: ApiService.Request)
      modifies this
      ensures request == ApiService.GetDocuments()
      ensures !loading && successMessage == old(successMessage)
      ensures response.Success? ==> documents == SortNewestFirst(response.value) && error == old(error)
      ensures response.Failure? ==> documents == old(documents) && error == Some(FetchError)
    {
      loading := true;
      request := ApiService.GetDocuments();
      match response {
        case Success(data) =>
          documents := SortNewestFirst(data);
          loading := false;
        case Failure(_) =>
          error := Some(FetchError);
          loading := false;
      }
    }

    /**
     * `handleDelete(name)`: nothing happens unless the user confirms. After a
     * successful delete a success message is set and the list is fetched again
     * (`refetch` is how that second request settles); a failed delete sets an
     * error message carrying the server's reason.
     */
    method HandleDelete(name: string, confirmed: bool, deleted: Result<(), ApiService.AxiosError>,
                        refetch: Result<seq<Document>, ApiService.AxiosError>)
      returns (requests: seq<ApiService.Request>)
      modifies this
      ensures !confirmed ==> requests == [] && documents == old(documents) && loading == old(loading) &&
                             error == old(error) && successMessage == old(successMessage)
      ensures confirmed ==> |requests| >= 1 && requests[0] == ApiService.DeleteDocument(name)
      ensures confirmed && deleted.Success? ==>
        requests == [ApiService.DeleteDocument(name), ApiService.GetDocuments()] &&
        successMessage == Some("Document \"" + name + "\" deleted successfully") && !loading &&
        (refetch.Success? ==> documents == SortNewestFirst(refetch.value) && error == old(error)) &&
        (refetch.Failure? ==> documents == old(documents) && error == Some(FetchError))
      ensures confirmed && deleted.Failure? ==>
        requests == [ApiService.DeleteDocument(name)] &&
        error == Some("Failed to delete document: " + ApiService.ErrorText(deleted.error)) &&
        documents == old(documents) && loading == old(loading) && successMessage == old(successMessage)
    {
      requests := [];
      if confirmed {
        requests := [ApiService.DeleteDocument(name)];
        match deleted {
          case Success(_) =>
            successMessage := Some("Document \"" + name + "\" deleted successfully");
            var again := FetchDocuments(refetch);
            requests := requests + [again];
          case Failure(e) =>
            error := Some("Failed to delete document: " + ApiService.ErrorText(e));
        }
      }
    }

    /** The timer three seconds after a delete, or the alert's close button: the message goes. */
    method ClearSuccessMessage()
      modifies this`successMessage
      ensures successMessage.None?
    {
      successMessage := None;
    }

    /** The error alert's close button. */
    method DismissError()
      modifies this`error
      ensures error.None?
    {
      error := None;
    }
  }
}

=== FILE: Documents.dfy ===
/**
 * The document records the backend lists, and the newest-first ordering that
 * both the document list and the dashboard apply to them:
 * `[...docs].sort((a, b) => new Date(b.uploadedAt) - new Date(a.uploadedAt))`.
 * Upload times are integer timestamps; the sort of the JavaScript runtime is
 * stable, so documents with the same time keep their order.
 */
module Documents {

  datatype Document = Document(name: string, path: string, uploadedAt: int)

  /** Newest first: upload times never increase along the list. */
  ghost predicate NewestFirst(s: seq<Document>)
  {
    forall i, j :: 0 <= i < j < |s| ==> s[i].uploadedAt >= s[j].uploadedAt
  }

  /** Places `d` in front of the first document strictly older than it. */
  function Insert(d: Document, s: seq<Document>): (r: seq<Document>)
    requires NewestFirst(s)
    ensures NewestFirst(r)
    ensures multiset(r) == multiset(s) + multiset{d}
    ensures |r| == |s| + 1
    decreases |s|, 1
  {
    if s == [] || d.uploadedAt >= s[0].uploadedAt then [d] + s
    else
      var rest := Insert(d, s[1..]);
      assert s == [s[0]] + s[1..];
      HeadIsNewest(s);
      InsertBelow(d, s[1..], s[0].uploadedAt);
      ConsNewestFirst(s[0], rest);
      [s[0]] + rest
  }

  /** In a newest-first list no document is newer than the head. */
  lemma HeadIsNewest(s: seq<Document>)
    requires NewestFirst(s) && s != []
    ensures forall x | x in s[1..] :: x.uploadedAt <= s[0].uploadedAt
  {
    forall x | x in s[1..]
      ensures x.uploadedAt <= s[0].uploadedAt
    {
      var k :| 0 <= k < |s[1..]| && s[1..][k] == x;
      assert s[k + 1] == x;
    }
  }

  /** A bound on the upload times of `d` and of `s` bounds those of `Insert(d, s)`. */
  lemma InsertBelow(d: Document, s: seq<Document>, bound: int)
    requires NewestFirst(s)
    requires d.uploadedAt <= bound
    requires forall x | x in s :: x.uploadedAt <= bound
    ensures forall x | x in Insert(d, s) :: x.uploadedAt <= bound
    decreases |s|, 2
  {
    forall x | x in Insert(d, s)
      ensures x.uploadedAt <= bound
    {
      assert x in multiset(Insert(d, s));
      assert x == d || x in multiset(s);
    }
  }

  lemma ConsNewestFirst(a: Document, s: seq<Document>)
    requires NewestFirst(s)
    requires forall x | x in s :: x.uploadedAt <= a.uploadedAt
    ensures NewestFirst([a] + s)
  {
    forall i, j | 0 <= i < j < |[a] + s|
      ensures ([a] + s)[i].uploadedAt >= ([a] + s)[j].uploadedAt
    {
      if i == 0 {
        assert ([a] + s)[j] == s[j - 1];
        assert s[j - 1] in s;
      }
    }
  }

  /** The sorted copy: a permutation of `s`, newest first. */
  function SortNewestFirst(s: seq<Document>): (r: seq<Document>)
    ensures NewestFirst(r)
    ensures multiset(r) == multiset(s)
    ensures |r| == |s|
  {
    if s == [] then []
    else
      assert s == [s[0]] + s[1..];
      Insert(s[0], SortNewestFirst(s[1..]))
  }

  /** The documents uploaded at time `t`, in list order. */
  function UploadedAt(s: seq<Document>, t: int): seq<Document>
  {
    if s == [] then []
    else if s[0].uploadedAt == t then [s[0]] + UploadedAt(s[1..], t)
    else UploadedAt(s[1..], t)
  }

  lemma {:induction false} InsertStable(d: Document, s: seq<Document>, t: int)
    requires NewestFirst(s)
    ensures UploadedAt(Insert(d, s), t) == if d.uploadedAt == t then [d] + UploadedAt(s, t) else UploadedAt(s, t)
  {
    if s == [] || d.uploadedAt >= s[0].uploadedAt {
      assert Insert(d, s) == [d] + s;
      assert ([d] + s)[1..] == s;
    } else {
      InsertStable(d, s[1..], t);
      assert ([s[0]] + Insert(d, s[1..]))[1..] == Insert(d, s[1..]);
    }
  }

  /** The sort is stable: documents with the same upload time keep their relative order. */
  lemma {:induction false} SortStable(s: seq<Document>, t: int)
    ensures UploadedAt(SortNewestFirst(s), t) == UploadedAt(s, t)
  {
    if s != [] {
      SortStable(s[1..], t);
      InsertStable(s[0], SortNewestFirst(s[1..]), t);
    }
  }

  /** The documents of time `t` in a prefix are a prefix of those in the whole list. */
  lemma {:induction false} UploadedAtOfPrefix(s: seq<Document>, n: nat, t: int)
    requires n <= |s|
    ensures UploadedAt(s[..n], t) <= UploadedAt(s, t)
  {
    if n > 0 {
      assert s[..n][1..] == s[1..][..n - 1];
      UploadedAtOfPrefix(s[1..], n - 1, t);
    }
  }

  /** A list already newest first is left as it is. */
  lemma {:induction false} SortKeepsSorted(s: seq<Document>)
    requires NewestFirst(s)
    ensures SortNewestFirst(s) == s
  {
    if s != [] {
      SortKeepsSorted(s[1..]);
      assert s == [s[0]] + s[1..];
    }
  }
}

=== FILE: KeycloakService.dfy ===
/**
 * The browser-side session layer around the Keycloak client.
 *
 * The Keycloak client itself is not modelled: a `Client` is a snapshot of the
 * fields the service reads from it, and every answer the client gives to a
 * call (`init`, `updateToken`, `logout`) is a parameter of the method that
 * makes the call. The two module-level variables of the service,
 * `keycloakInstance` and `isInitialized`, are the fields of `Session`.
 */
module KeycloakService {
  import opened Wrappers
  import opened Text

  /** The token claims the application reads (the parsed access token). */
  datatype Claims = Claims(
    preferredUsername: Option<string>,
    givenName: Option<string>,
    familyName: Option<string>,
    email: Option<string>,
    realmRoles: Option<seq<string>>,   // `realm_access.roles`, absent when `realm_access` is
    exp: Option<int>)                  // expiry, in seconds since the epoch

  /** One entry of the client's `resourceAccess`: its `roles` may be absent. */
  datatype ClientAccess = ClientAccess(roles: Option<seq<string>>)

  /** What the service reads from the Keycloak client object. */
  datatype Client = Client(
    authenticated: bool,
    token: Option<string>,
    tokenParsed: Option<Claims>,
    resourceAccess: Option<map<string, ClientAccess>>,
    tokenExpired: bool)                // the answer the client's own `isTokenExpired()` gives

  /** A client just constructed, before its `init` has settled. */
  function NewClient(): (c: Client)
    ensures !c.authenticated && c.token.None? && c.tokenParsed.None? && c.resourceAccess.None?
  {
    Client(false, None, None, None, true)
  }

  /** A rejection value: an `Error` whose `message` may be missing. */
  datatype JsError = JsError(message: Option<string>)

  /** An option value passed to the client (`onLoad: 'check-sso'`, `checkLoginIframe: false`, ...). */
  datatype OptionValue = Text(s: string) | Flag(b: bool)

  type Options = map<string, OptionValue>

  /** The address of the page: `href` is `origin + pathname + search + hash`. */
  datatype Location = Location(origin: string, pathname: string, search: string, hash: string) {
    function Href(): string { origin + pathname + search + hash }
  }

  datatype Config = Config(url: string, realm: string, clientId: string)

  /**
   * `value || fallback` on an optional string, as used for environment
   * variables and token claims: an absent or empty value yields the fallback.
   */
  function OrElse(value: Option<string>, fallback: string): (r: string)
    ensures value.Some? && value.value != "" ==> r == value.value
    ensures value.None? || value.value == "" ==> r == fallback
  {
    if value.Some? && value.value != "" then value.value else fallback
  }

  /** The client configuration, built from the three environment variables. */
  function ConfigFromEnv(url: Option<string>, realm: Option<string>, clientId: Option<string>): (c: Config)
    ensures c.url == OrElse(url, "http://localhost:8080")
    ensures c.realm == OrElse(realm, "document-demo")
    ensures c.clientId == OrElse(clientId, "frontend-app")
  {
    Config(OrElse(url, "http://localhost:8080"), OrElse(realm, "document-demo"), OrElse(clientId, "frontend-app"))
  }

  /** With no environment variable set, the configuration is the local development one. */
  lemma DefaultConfig()
    ensures ConfigFromEnv(None, None, None) == Config("http://localhost:8080", "document-demo", "frontend-app")
  {
  }

  /** `{ ...defaults, ...options }`: the caller's keys override, the other defaults stay. */
  function Spread(defaults: Options, options: Options): (r: Options)
    ensures r.Keys == defaults.Keys + options.Keys
    ensures forall k :: k in options ==> r[k] == options[k]
    ensures forall k :: k in defaults && k !in options ==> r[k] == defaults[k]
  {
    defaults + options
  }

  const InitDefaults: Options :=
    map["onLoad" := Text("check-sso"), "pkceMethod" := Text("S256"), "checkLoginIframe" := Flag(false)]

  /** The options `init` hands to the client: check-sso, PKCE with S256, no login iframe, unless overridden. */
  function InitOptions(options: Options): (r: Options)
    ensures "onLoad" in r && "pkceMethod" in r && "checkLoginIframe" in r
    ensures forall k :: k in options ==> k in r && r[k] == options[k]
    ensures "onLoad" !in options ==> r["onLoad"] == Text("check-sso")
    ensures "pkceMethod" !in options ==> r["pkceMethod"] == Text("S256")
    ensures "checkLoginIframe" !in options ==> r["checkLoginIframe"] == Flag(false)
    ensures forall k :: k in r ==> k in options || k in InitDefaults
  {
    Spread(InitDefaults, options)
  }

  /** The options `login` hands to the client: redirect to the dashboard unless overridden. */
  function LoginOptions(options: Options, origin: string): (r: Options)
    ensures "redirectUri" in r
    ensures "redirectUri" !in options ==> r["redirectUri"] == Text(origin + "/dashboard")
    ensures forall k :: k in options ==> k in r && r[k] == options[k]
    ensures forall k :: k in r ==> k in options || k == "redirectUri"
  {
    Spread(map["redirectUri" := Text(origin + "/dashboard")], options)
  }

  /** The options `logout` hands to the client: redirect to the origin unless overridden. */
  function LogoutOptions(options: Options, origin: string): (r: Options)
    ensures "redirectUri" in r
    ensures "redirectUri" !in options ==> r["redirectUri"] == Text(origin)
    ensures forall k :: k in options ==> k in r && r[k] == options[k]
    ensures forall k :: k in r ==> k in options || k == "redirectUri"
  {
    Spread(map["redirectUri" := Text(origin)], options)
  }

  // ---------------------------------------------------------------------------
  // Queries: pure reads of the current client (`keycloakInstance`)
  // ---------------------------------------------------------------------------

  /** `isLoggedIn()`: a session needs a client, and the client must report itself authenticated. */
  function IsLoggedIn(inst: Option<Client>): (r: bool)
    ensures r ==> inst.Some?
    ensures inst.Some? ==> (r <==> inst.value.authenticated)
  {
    inst.Some? && inst.value.authenticated
  }

  /** `getUsername()`: the `preferred_username` claim, absent without a client or parsed token. */
  function GetUsername(inst: Option<Client>): (r: Option<string>)
    ensures r.Some? ==> inst.Some? && inst.value.tokenParsed.Some?
    ensures inst.Some? && inst.value.tokenParsed.Some? ==> r == inst.value.tokenParsed.value.preferredUsername
  {
    if inst.Some? && inst.value.tokenParsed.Some? then inst.value.tokenParsed.value.preferredUsername else None
  }

  /** `getToken()`: the client's raw token, absent without a client. */
  function GetToken(inst: Option<Client>): (r: Option<string>)
    ensures inst.None? ==> r.None?
    ensures inst.Some? ==> r == inst.value.token
  {
    if inst.Some? then inst.value.token else None
  }

  /** `isTokenExpired()`: no client counts as expired; otherwise the client decides. */
  function IsTokenExpired(inst: Option<Client>): (r: bool)
    ensures inst.None? ==> r
    ensures inst.Some? ==> (r <==> inst.value.tokenExpired)
  {
    inst.None? || inst.value.tokenExpired
  }

  /**
   * `getFullName()`: given and family name joined by a space and trimmed, or
   * `'User'` when there are no claims or nothing but whitespace is left.
   * The result is never empty and never starts or ends with whitespace.
   */
  function GetFullName(inst: Option<Client>): (r: string)
    ensures r != [] && !IsWhitespace(r[0]) && !IsWhitespace(r[|r| - 1])
    ensures inst.None? || inst.value.tokenParsed.None? ==> r == "User"
  {
    if inst.None? || inst.value.tokenParsed.None? then "User"
    else
      var claims := inst.value.tokenParsed.value;
      var joined := Trim(OrElse(claims.givenName, "") + " " + OrElse(claims.familyName, ""));
      if joined == "" then "User" else joined
  }

  /** With both names present and free of surrounding whitespace, the full name is exactly "given family". */
  lemma FullNameOfTidyNames(c: Client, given: string, family: string)
    requires c.tokenParsed.Some? && c.tokenParsed.value.givenName == Some(given) && c.tokenParsed.value.familyName == Some(family)
    requires given != [] && !IsWhitespace(given[0]) && !IsWhitespace(given[|given| - 1])
    requires family != [] && !IsWhitespace(family[0]) && !IsWhitespace(family[|family| - 1])
    ensures GetFullName(Some(c)) == given + " " + family
  {
    TrimOfTrimmed(given + " " + family);
  }

  /** With only a tidy given name (the family name missing or blank), the full name is the given name. */
  lemma FullNameOfGivenOnly(c: Client, given: string)
    requires c.tokenParsed.Some? && c.tokenParsed.value.givenName == Some(given)
    requires given != [] && !IsWhitespace(given[0]) && !IsWhitespace(given[|given| - 1])
    requires var f := OrElse(c.tokenParsed.value.familyName, ""); forall i :: 0 <= i < |f| ==> IsWhitespace(f[i])
    ensures GetFullName(Some(c)) == given
  {
    var f := OrElse(c.tokenParsed.value.familyName, "");
    assert given + " " + f == given + (" " + f);
    TrimOfTidyThenBlank(given, " " + f);
  }

  /** With only a tidy family name (the given name missing or blank), the full name is the family name. */
  lemma FullNameOfFamilyOnly(c: Client, family: string)
    requires c.tokenParsed.Some? && c.tokenParsed.value.familyName == Some(family)
    requires family != [] && !IsWhitespace(family[0]) && !IsWhitespace(family[|family| - 1])
    requires var g := OrElse(c.tokenParsed.value.givenName, ""); forall i :: 0 <= i < |g| ==> IsWhitespace(g[i])
    ensures GetFullName(Some(c)) == family
  {
    var g := OrElse(c.tokenParsed.value.givenName, "");
    TrimOfBlankThenTidy(g + " ", family);
  }

  /** With neither name present, the full name is `'User'` even when claims exist. */
  lemma {:induction false} FullNameWithoutNames(c: Client)
    requires c.tokenParsed.Some?
    requires OrElse(c.tokenParsed.value.givenName, "") == "" && OrElse(c.tokenParsed.value.familyName, "") == ""
    ensures GetFullName(Some(c)) == "User"
  {
    TrimOfBlank(" ");
  }

  /** `getUserRoles()`: the `roles` of this application's entry in `resourceAccess`, else `[]`. */
  function GetUserRoles(inst: Option<Client>, clientId: string): (r: seq<string>)
    ensures inst.None? || inst.value.resourceAccess.None? ==> r == []
    ensures r != [] ==> inst.Some? && inst.value.resourceAccess.Some? && clientId in inst.value.resourceAccess.value
    ensures inst.Some? && inst.value.resourceAccess.Some? ==>
      var access := inst.value.resourceAccess.value;
      r == (if clientId in access && access[clientId].roles.Some? then access[clientId].roles.value else [])
  {
    if inst.None? || inst.value.resourceAccess.None? then []
    else
      var access := inst.value.resourceAccess.value;
      if clientId in access && access[clientId].roles.Some? then access[clientId].roles.value else []
  }

  /** `hasRole(role)`: membership in the client roles, and nowhere else. */
  function HasRole(inst: Option<Client>, clientId: string, role: string): (r: bool)
    ensures r <==> role in GetUserRoles(inst, clientId)
    ensures r ==> inst.Some?
  {
    role in GetUserRoles(inst, clientId)
  }

  /** A role held only as a realm role is not a role for `hasRole`; the client roles alone decide. */
  lemma {:induction false} HasRoleIgnoresRealmRoles(c: Client, clientId: string, role: string, realmRoles: Option<seq<string>>)
    requires c.tokenParsed.Some?
    ensures HasRole(Some(c), clientId, role)
        <==> HasRole(Some(c.(tokenParsed := Some(c.tokenParsed.value.(realmRoles := realmRoles)))), clientId, role)
    ensures HasRole(Some(c), clientId, role) <==>
            (c.resourceAccess.Some? && clientId in c.resourceAccess.value &&
             c.resourceAccess.value[clientId].roles.Some? && role in c.resourceAccess.value[clientId].roles.value)
  {
  }

  /** Roles granted to another client in `resourceAccess` are not roles of this application. */
  lemma OtherClientRolesIgnored(c: Client, clientId: string, other: string, access: ClientAccess, role: string)
    requires c.resourceAccess.Some? && other != clientId
    ensures HasRole(Some(c.(resourceAccess := Some(c.resourceAccess.value[other := access]))), clientId, role)
        <==> HasRole(Some(c), clientId, role)
  {
  }

  /** Without a client every query gives its "no session" answer. */
  lemma NoClientQueries(clientId: string, role: string)
    ensures !IsLoggedIn(None) && IsTokenExpired(None)
    ensures GetToken(None).None? && GetUsername(None).None?
    ensures GetFullName(None) == "User" && GetUserRoles(None, clientId) == [] && !HasRole(None, clientId, role)
  {
  }

  /** What `updateToken(minValidity)` does: reject without a client, else ask the client. */
  datatype TokenCall = RejectedNoClient | RefreshRequested(minValidity: int)

  /** `updateToken(minValidity = 5)`. */
  function UpdateToken(inst: Option<Client>, minValidity: Option<int>): (r: TokenCall)
    ensures r.RejectedNoClient? <==> inst.None?
    ensures inst.Some? ==> r.minValidity == (if minValidity.Some? then minValidity.value else 5)
  {
    if inst.None? then RejectedNoClient else RefreshRequested(minValidity.GetOr(5))
  }

  // ---------------------------------------------------------------------------
  // The session state machine: `init`, `login`, `logout` and the client's handlers
  // ---------------------------------------------------------------------------

  /** What `login` does. */
  datatype LoginAction =
    | LoginRejected(message: string)          // the promise rejects
    | RedirectToDashboard                     // already authenticated: `window.location.href = '/dashboard'`
    | ClientLogin(options: Options)           // the client's `login(options)`

  /** What `logout` does: nothing without a client, else the client's `logout(options)`. */
  datatype LogoutAction = NoClient | ClientLogout(options: Options)

  const NotInitializedMessage := "Keycloak not initialized. Call init() first."

  class Session {
    const config: Config
    var instance: Option<Client>      // `keycloakInstance`
    var initialized: bool             // `isInitialized`
    ghost var clientsCreated: nat     // how many clients `init` has constructed (and bound handlers on)

    /** At most one client is ever created: exactly one once `instance` is set. */
    ghost predicate Valid()
      reads this
    {
      clientsCreated == (if instance.Some? then 1 else 0)
    }

    constructor (config: Config)
      ensures Valid() && this.config == config
      ensures instance.None? && !initialized && clientsCreated == 0
    {
      this.config := config;
      instance := None;
      initialized := false;
      clientsCreated := 0;
    }

    /**
     * `init(options)`. Creates the client and binds its handlers only when there
     * is none; calls the client's `init` with `InitOptions(options)`; whatever
     * `outcome` the client gives, `initialized` is true afterwards, a resolution
     * yields the client's `authenticated` flag and a rejection is passed on
     * unchanged. When authenticated at `/`, the browser is sent to `/dashboard`.
     */
    method Init(options: Options, loc: Location, outcome: Result<Client, JsError>)
      returns (sent: Options, r: Result<bool, JsError>, redirect: Option<string>)
      requires Valid()
      modifies this
      ensures Valid() && initialized && instance.Some?
      ensures old(instance).Some? ==> clientsCreated == old(clientsCreated)
      ensures clientsCreated <= 1
      ensures sent == InitOptions(options)
      ensures outcome.Success? ==> instance == Some(outcome.value) && r == Success(outcome.value.authenticated)
      ensures outcome.Failure? ==> r == Failure(outcome.error)
      ensures outcome.Failure? ==> instance == (if old(instance).Some? then old(instance) else Some(NewClient()))
      ensures redirect.Some? <==> outcome.Success? && outcome.value.authenticated && loc.pathname == "/"
      ensures redirect.Some? ==> redirect.value == "/dashboard"
    {
      if instance.None? {
        instance := Some(NewClient());
        clientsCreated := clientsCreated + 1;
      }
      sent := InitOptions(options);
      redirect := None;
      match outcome {
        case Success(c) =>
          instance := Some(c);
          initialized := true;
          if c.authenticated && loc.pathname == "/" {
            redirect := Some("/dashboard");
          }
          r := Success(c.authenticated);
        case Failure(e) =>
          initialized := true;
          r := Failure(e);
      }
    }

    /** The client's `onAuthSuccess` handler, bound by `init`. */
    method OnAuthSuccess(loc: Location) returns (redirect: Option<string>)
      requires Valid() && instance.Some?
      modifies this`initialized
      ensures Valid() && initialized
      ensures redirect.Some? <==>
        loc.pathname == "/" && loc.hash != "" && Contains(loc.hash, "state=") && Contains(loc.hash, "code=")
      ensures redirect.Some? ==> redirect.value == "/dashboard"
    {
      initialized := true;
      if loc.pathname == "/" && loc.hash != "" && Contains(loc.hash, "state=") && Contains(loc.hash, "code=") {
        redirect := Some("/dashboard");
      } else {
        redirect := None;
      }
    }

    /** The client's `onAuthError` handler, bound by `init`. */
    method OnAuthError()
      requires Valid() && instance.Some?
      modifies this`initialized
      ensures Valid() && initialized
    {
      initialized := true;
    }

    /**
     * The client's `onTokenExpired` handler: asks the client to refresh a token
     * that is valid for less than 30 seconds; a failed refresh is swallowed and
     * leaves everything as it was.
     */
    method OnTokenExpired(outcome: Result<Client, JsError>) returns (call: TokenCall)
      requires Valid() && instance.Some?
      modifies this`instance
      ensures Valid() && call == RefreshRequested(30)
      ensures outcome.Success? ==> instance == Some(outcome.value)
      ensures outcome.Failure? ==> instance == old(instance)
    {
      call := RefreshRequested(30);
      if outcome.Success? {
        instance := Some(outcome.value);
      }
    }

    /**
     * `login(options)`: rejects before `init` has created a client and settled;
     * when already authenticated it only redirects to `/dashboard`; otherwise
     * it asks the client to log in, redirecting back to `/dashboard` by default.
     */
    method Login(options: Options, origin: string) returns (action: LoginAction)
      ensures action.LoginRejected? <==> instance.None? || !initialized
      ensures action.LoginRejected? ==> action.message == NotInitializedMessage
      ensures action.RedirectToDashboard? <==> instance.Some? && initialized && instance.value.authenticated
      ensures action.ClientLogin? ==> action.options == LoginOptions(options, origin)
    {
      if instance.None? || !initialized {
        action := LoginRejected(NotInitializedMessage);
      } else if instance.value.authenticated {
        action := RedirectToDashboard;
      } else {
        action := ClientLogin(LoginOptions(options, origin));
      }
    }

    /**
     * `logout(options)`: does nothing without a client; otherwise asks the client
     * to log out, redirecting to the origin by default. If the client's logout
     * rejects, the browser is sent to `/`.
     */
    method Logout(options: Options, origin: string, clientFails: bool) returns (action: LogoutAction, redirect: Option<string>)
      ensures action.NoClient? <==> instance.None?
      ensures action.ClientLogout? ==> action.options == LogoutOptions(options, origin)
      ensures redirect.Some? <==> instance.Some? && clientFails
      ensures redirect.Some? ==> redirect.value == "/"
    {
      if instance.None? {
        action, redirect := NoClient, None;
      } else {
        action := ClientLogout(LogoutOptions(options, origin));
        redirect := if clientFails then Some("/") else None;
      }
    }
  }
}

=== FILE: Profile.dfy ===
/**
 * The profile page: what it shows of the token claims, with its fallbacks,
 * the avatar initials and the colour of each role badge. The page sits behind
 * the private route, so a client is present whenever it renders.
 */
module Profile {
  import opened Wrappers
  import opened Text
  import opened KeycloakService

  /** What the page displays. */
  datatype ProfileView = ProfileView(
    username: string,
    firstName: string,
    lastName: string,
    email: string,
    roles: seq<string>,                 // client roles, one badge each
    realmRoles: Option<seq<string>>,    // shown only when the token has `realm_access`
    expiryMillis: Option<int>)          // `exp * 1000`; absent when the token has no `exp`

  /** The claims the page reads: `keycloak.tokenParsed || {}`. */
  function ClaimsOf(c: Client): (claims: Claims)
    ensures c.tokenParsed.Some? ==> claims == c.tokenParsed.value
    ensures c.tokenParsed.None? ==>
      (claims.preferredUsername.None? && claims.givenName.None? && claims.familyName.None? &&
       claims.email.None? && claims.realmRoles.None? && claims.exp.None?)
  {
    if c.tokenParsed.Some? then c.tokenParsed.value else Claims(None, None, None, None, None, None)
  }

  /** Seconds since the epoch to the milliseconds a `Date` takes. */
  function ExpiryMillis(exp: Option<int>): (r: Option<int>)
    ensures r.Some? <==> exp.Some?
    ensures r.Some? ==> r.value % 1000 == 0 && r.value / 1000 == exp.value
  {
    if exp.Some? then Some(exp.value * 1000) else None
  }

  /**
   * The page's view of a client: missing claims fall back to `'User'`, `''`, `''`
   * and `'Not provided'`; the badges are the client roles.
   */
  function ProfileOf(c: Client, clientId: string): (v: ProfileView)
    ensures v.username != "" && v.email != ""
    ensures v.username == OrElse(ClaimsOf(c).preferredUsername, "User")
    ensures v.firstName == OrElse(ClaimsOf(c).givenName, "") && v.lastName == OrElse(ClaimsOf(c).familyName, "")
    ensures v.email == OrElse(ClaimsOf(c).email, "Not provided")
    ensures v.roles == GetUserRoles(Some(c), clientId)
    ensures v.realmRoles == ClaimsOf(c).realmRoles
    ensures v.expiryMillis == ExpiryMillis(ClaimsOf(c).exp)
  {
    var claims := ClaimsOf(c);
    ProfileView(
      OrElse(claims.preferredUsername, "User"),
      OrElse(claims.givenName, ""),
      OrElse(claims.familyName, ""),
      OrElse(claims.email, "Not provided"),
      GetUserRoles(Some(c), clientId),
      claims.realmRoles,
      ExpiryMillis(claims.exp))
  }

  /**
   * `getInitials()`: the upper-cased first letters of first and last name when
   * both are present, else the upper-cased first letter of the username,
   * else `'U'`.
   */
  function GetInitials(firstName: string, lastName: string, username: string): (r: string)
    ensures firstName != "" && lastName != "" ==> r == [UpperChar(firstName[0]), UpperChar(lastName[0])]
    ensures (firstName == "" || lastName == "") && username != "" ==> r == [UpperChar(username[0])]
    ensures (firstName == "" || lastName == "") && username == "" ==> r == "U"
  {
    if firstName != "" && lastName != "" then
      assert [firstName[0], lastName[0]][1..] == [lastName[0]];
      assert [lastName[0]][1..] == [];
      assert ToUpper([lastName[0]]) == [UpperChar(lastName[0])];
      assert ToUpper([firstName[0], lastName[0]]) == [UpperChar(firstName[0])] + [UpperChar(lastName[0])];
      ToUpper([firstName[0], lastName[0]])
    else if username != "" then
      assert [username[0]][1..] == [];
      ToUpper([username[0]])
    else "U"
  }

  /** The avatar always shows one or two characters, and `'U'` for a token without claims. */
  lemma InitialsOfProfile(c: Client, clientId: string)
    ensures var v := ProfileOf(c, clientId); |GetInitials(v.firstName, v.lastName, v.username)| in {1, 2}
    ensures c.tokenParsed.None? ==> var v := ProfileOf(c, clientId); GetInitials(v.firstName, v.lastName, v.username) == "U"
  {
  }

  /** `getRoleBadgeVariant(role)`: the badge colour of a role, whatever its letter case. */
  function GetRoleBadgeVariant(role: string): (r: string)
    ensures r in {"danger", "warning", "info", "secondary"}
    ensures r == "danger" <==> ToLower(role) == "admin"
    ensures r == "warning" <==> ToLower(role) == "editor"
    ensures r == "info" <==> ToLower(role) == "user"
  {
    match ToLower(role)
    case "admin" => "danger"
    case "editor" => "warning"
    case "user" => "info"
    case _ => "secondary"
  }

  /** Roles that differ only in case get the same badge; so does an upper-cased role. */
  lemma BadgeIgnoresCase(role: string)
    ensures GetRoleBadgeVariant(ToUpper(role)) == GetRoleBadgeVariant(role)
    ensures GetRoleBadgeVariant(ToLower(role)) == GetRoleBadgeVariant(role)
  {
    ToLowerOfUpper(role);
    ToLowerIdempotent(role);
  }

  /** The realm roles are shown but decide nothing: the client-role badges do not depend on them. */
  lemma RealmRolesDisplayOnly(c: Client, clientId: string, realmRoles: Option<seq<string>>)
    requires c.tokenParsed.Some?
    ensures var c' := c.(tokenParsed := Some(c.tokenParsed.value.(realmRoles := realmRoles)));
      ProfileOf(c', clientId) == ProfileOf(c, clientId).(realmRoles := realmRoles)
  {
  }
}

=== FILE: Text.dfy ===
/**
 * String helpers standing in for the JavaScript built-ins the core calls:
 * `includes`, `toLowerCase`/`toUpperCase`, `trim`, `split('.').pop()` and `join`.
 * Strings are `seq<char>`; case mapping covers the ASCII letters only.
 */
module Text {

  /** `s.includes(p)`: `p` occurs in `s` as a contiguous block. */
  predicate Contains(s: string, p: string)
    decreases |s|
  {
    |p| <= |s| && (s[..|p|] == p || Contains(s[1..], p))
  }

  /** `Contains` agrees with the direct definition of "occurs at some offset". */
  lemma {:induction false} ContainsAt(s: string, p: string, k: nat)
    requires k + |p| <= |s| && s[k..k + |p|] == p
    ensures Contains(s, p)
    decreases k
  {
    if k > 0 {
      assert s[1..][k - 1..k - 1 + |p|] == s[k..k + |p|];
      ContainsAt(s[1..], p, k - 1);
    }
  }

  lemma {:induction false} ContainsWitness(s: string, p: string) returns (k: nat)
    requires Contains(s, p)
    ensures k + |p| <= |s| && s[k..k + |p|] == p
    decreases |s|
  {
    if s[..|p|] == p {
      k := 0;
    } else {
      var k' := ContainsWitness(s[1..], p);
      assert s[1..][k'..k' + |p|] == s[k' + 1..k' + 1 + |p|];
      k := k' + 1;
    }
  }

  /** Whatever occurs in a part of a string occurs in the whole. */
  lemma ContainsInMiddle(a: string, b: string, c: string, p: string)
    requires Contains(b, p)
    ensures Contains(a + b + c, p)
  {
    var k := ContainsWitness(b, p);
    var s := a + b + c;
    assert s[|a| + k..|a| + k + |p|] == b[k..k + |p|];
    ContainsAt(s, p, |a| + k);
  }

  /** A text lacking one of the characters of `p` does not contain `p`. */
  lemma {:induction false} NoCharNoContains(s: string, p: string, j: nat)
    requires j < |p|
    requires forall i :: 0 <= i < |s| ==> s[i] != p[j]
    ensures !Contains(s, p)
    decreases |s|
  {
    if |p| <= |s| {
      assert s[..|p|][j] == s[j];
      NoCharNoContains(s[1..], p, j);
    }
  }

  /** The characters `String.prototype.trim` removes: ECMAScript WhiteSpace and LineTerminator. */
  predicate IsWhitespace(c: char) {
    || c == '\t' || c == '\n' || c == '\U{000B}' || c == '\U{000C}' || c == '\r' || c == ' '
    || c == '\U{00A0}' || c == '\U{1680}' || ('\U{2000}' <= c <= '\U{200A}')
    || c == '\U{2028}' || c == '\U{2029}' || c == '\U{202F}' || c == '\U{205F}'
    || c == '\U{3000}' || c == '\U{FEFF}'
  }

  /** Drops the leading whitespace: the result is the suffix that starts at the first other character. */
  function TrimStart(s: string): (r: string)
    ensures |r| <= |s| && r == s[|s| - |r|..]
    ensures r == [] || !IsWhitespace(r[0])
    ensures forall i :: 0 <= i < |s| - |r| ==> IsWhitespace(s[i])
  {
    if s != [] && IsWhitespace(s[0]) then TrimStart(s[1..]) else s
  }

  /** Drops the trailing whitespace: the result is the prefix that ends at the last other character. */
  function TrimEnd(s: string): (r: string)
    ensures |r| <= |s| && r == s[..|r|]
    ensures r == [] || !IsWhitespace(r[|r| - 1])
    ensures forall i :: |r| <= i < |s| ==> IsWhitespace(s[i])
  {
    if s != [] && IsWhitespace(s[|s| - 1]) then TrimEnd(s[..|s| - 1]) else s
  }

  /** `s.trim()`: a block of `s` with no whitespace at either end, all that was cut being whitespace. */
  function Trim(s: string): (r: string)
    ensures r == [] || (!IsWhitespace(r[0]) && !IsWhitespace(r[|r| - 1]))
    ensures Contains(s, r)
  {
    var t := TrimStart(s);
    var r := TrimEnd(t);
    assert r == s[|s| - |t|..|s| - |t| + |r|];
    ContainsAt(s, r, |s| - |t|);
    r
  }

  /** A string without whitespace at either end is its own trim. */
  lemma TrimOfTrimmed(s: string)
    requires s != [] && !IsWhitespace(s[0]) && !IsWhitespace(s[|s| - 1])
    ensures Trim(s) == s
  {
  }

  /** A string made only of whitespace trims to the empty string. */
  lemma {:induction false} TrimOfBlank(s: string)
    requires forall i :: 0 <= i < |s| ==> IsWhitespace(s[i])
    ensures Trim(s) == []
  {
    if s != [] {
      assert TrimStart(s) == TrimStart(s[1..]);
      TrimOfBlank(s[1..]);
    }
  }

  /** Whitespace appended to a text that does not end in whitespace is cut by `trim`'s end. */
  lemma {:induction false} TrimEndOfBlankTail(a: string, w: string)
    requires a == [] || !IsWhitespace(a[|a| - 1])
    requires forall i :: 0 <= i < |w| ==> IsWhitespace(w[i])
    ensures TrimEnd(a + w) == a
    decreases |w|
  {
    if w == [] {
      assert a + w == a;
    } else {
      var w' := w[..|w| - 1];
      assert (a + w)[..|a + w| - 1] == a + w';
      TrimEndOfBlankTail(a, w');
    }
  }

  /** Whitespace in front of a text that does not start with whitespace is cut by `trim`'s start. */
  lemma {:induction false} TrimStartOfBlankHead(w: string, b: string)
    requires b == [] || !IsWhitespace(b[0])
    requires forall i :: 0 <= i < |w| ==> IsWhitespace(w[i])
    ensures TrimStart(w + b) == b
    decreases |w|
  {
    if w == [] {
      assert w + b == b;
    } else {
      assert (w + b)[1..] == w[1..] + b;
      TrimStartOfBlankHead(w[1..], b);
    }
  }

  /** `trim` of a tidy text followed by whitespace is the text. */
  lemma TrimOfTidyThenBlank(a: string, w: string)
    requires a != [] && !IsWhitespace(a[0]) && !IsWhitespace(a[|a| - 1])
    requires forall i :: 0 <= i < |w| ==> IsWhitespace(w[i])
    ensures Trim(a + w) == a
  {
    assert TrimStart(a + w) == a + w;
    TrimEndOfBlankTail(a, w);
  }

  /** `trim` of whitespace followed by a tidy text is the text. */
  lemma TrimOfBlankThenTidy(w: string, b: string)
    requires b != [] && !IsWhitespace(b[0]) && !IsWhitespace(b[|b| - 1])
    requires forall i :: 0 <= i < |w| ==> IsWhitespace(w[i])
    ensures Trim(w + b) == b
  {
    TrimStartOfBlankHead(w, b);
  }

  function LowerChar(c: char): (r: char)
  {
    if 'A' <= c <= 'Z' then (c as int + 32) as char else c
  }

  function UpperChar(c: char): (r: char)
  {
    if 'a' <= c <= 'z' then (c as int - 32) as char else c
  }

  /** `s.toLowerCase()` on ASCII letters. */
  function ToLower(s: string): (r: string)
    ensures |r| == |s|
  {
    if s == [] then [] else [LowerChar(s[0])] + ToLower(s[1..])
  }

  /** `s.toUpperCase()` on ASCII letters. */
  function ToUpper(s: string): (r: string)
    ensures |r| == |s|
  {
    if s == [] then [] else [UpperChar(s[0])] + ToUpper(s[1..])
  }

  /** Lower-casing distributes over appending one character. */
  lemma {:induction false} ToLowerSnoc(s: string, c: char)
    ensures ToLower(s + [c]) == ToLower(s) + [LowerChar(c)]
  {
    if s != [] {
      assert (s + [c])[1..] == s[1..] + [c];
      ToLowerSnoc(s[1..], c);
    }
  }

  /** Lower-casing twice is lower-casing once. */
  lemma {:induction false} ToLowerIdempotent(s: string)
    ensures ToLower(ToLower(s)) == ToLower(s)
  {
    if s != [] {
      ToLowerIdempotent(s[1..]);
    }
  }

  /** Upper-casing first does not change what lower-casing gives. */
  lemma {:induction false} ToLowerOfUpper(s: string)
    ensures ToLower(ToUpper(s)) == ToLower(s)
  {
    if s != [] {
      ToLowerOfUpper(s[1..]);
    }
  }

  /** `xs.join(sep)`. */
  function Join(xs: seq<string>, sep: string): (r: string)
  {
    if |xs| == 0 then ""
    else if |xs| == 1 then xs[0]
    else xs[0] + sep + Join(xs[1..], sep)
  }
}

=== FILE: UploadDocument.dfy ===
/**
 * The upload page: drag-and-drop state, file choice, and the upload with its
 * simulated progress. While the upload request is pending, an interval
 * raises the progress by 10 every 300 ms up to at most 90; the page clears
 * that interval only when the upload succeeds. Each firing of a live interval
 * is one step of a loop here; timing itself is not modelled.
 */
module UploadDocument {
  import opened Wrappers
  import ApiService

  /** The chosen file: the page shows its name and size. */
  datatype FileRef = FileRef(name: string, size: int)

  /** One firing of the progress interval: ten more, but never past 90. */
  function NextProgress(p: int): (r: int)
    ensures r <= 90
    ensures p <= 90 ==> p <= r
    ensures r == 90 || r == p + 10
    ensures p + 10 < 90 ==> r == p + 10
  {
    var next := p + 10;
    if next >= 90 then 90 else next
  }

  /** The progress after `n` firings, starting from 0. */
  function ProgressAfter(n: nat): (r: int)
    ensures 0 <= r <= 90 && r % 10 == 0
    ensures n > 0 ==> r > 0
  {
    if n == 0 then 0 else NextProgress(ProgressAfter(n - 1))
  }

  /** After `n` firings the progress is `min(10 n, 90)`. */
  lemma {:induction false} ProgressAfterClosedForm(n: nat)
    ensures ProgressAfter(n) == if 10 * n < 90 then 10 * n else 90
  {
    if n > 0 {
      ProgressAfterClosedForm(n - 1);
    }
  }

  /** Progress never decreases while the upload is pending, and stays within 0 to 90. */
  lemma ProgressMonotone(m: nat, n: nat)
    requires m <= n
    ensures 0 <= ProgressAfter(m) <= ProgressAfter(n) <= 90
  {
    ProgressAfterClosedForm(m);
    ProgressAfterClosedForm(n);
  }

  const NoFileError := "Please select a file to upload"

  /** The page's React state, plus the number of progress intervals still running. */
  class UploadForm {
    var file: Option<FileRef>
    var dragActive: bool
    var uploading: bool
    var error: Option<string>
    var uploadProgress: int
    var liveIntervals: nat

    constructor ()
      ensures file.None? && !dragActive && !uploading && error.None? && uploadProgress == 0 && liveIntervals == 0
    {
      file, dragActive, uploading, error, uploadProgress, liveIntervals := None, false, false, None, 0, 0;
    }

    /**
     * `disabled={!file || uploading}` on the submit button: the button only
     * submits with a file chosen and no upload in flight.
     */
    function SubmitDisabled(): (r: bool)
      reads this
      ensures !r ==> file.Some? && !uploading
      ensures file.None? || uploading ==> r
    {
      file.None? || uploading
    }

    /** `handleDrag(e)`: entering or moving over the zone activates it, leaving deactivates it. */
    method HandleDrag(eventType: string)
      modifies this`dragActive
      ensures eventType == "dragenter" || eventType == "dragover" ==> dragActive
      ensures eventType == "dragleave" ==> !dragActive
      ensures eventType !in {"dragenter", "dragover", "dragleave"} ==> dragActive == old(dragActive)
    {
      if eventType == "dragenter" || eventType == "dragover" {
        dragActive := true;
      } else if eventType == "dragleave" {
        dragActive := false;
      }
    }

    /** `handleDrop(e)`: the zone is deactivated; the first dropped file, if any, is chosen. */
    method HandleDrop(files: seq<FileRef>)
      modifies this`dragActive, this`file
      ensures !dragActive
      ensures files != [] ==> file == Some(files[0])
      ensures files == [] ==> file == old(file)
    {
      dragActive := false;
      if files != [] {
        file := Some(files[0]);
      }
    }

    /** `handleFileChange(e)`: the first chosen file, if any, replaces the current one. */
    method HandleFileChange(files: seq<FileRef>)
      modifies this`file
      ensures files != [] ==> file == Some(files[0])
      ensures files == [] ==> file == old(file)
    {
      if files != [] {
        file := Some(files[0]);
      }
    }

    /** One firing of a progress interval that is still running. */
    method IntervalFires()
      requires liveIntervals > 0
      modifies this`uploadProgress
      ensures uploadProgress == NextProgress(old(uploadProgress))
    {
      uploadProgress := NextProgress(uploadProgress);
    }

    /**
     * `handleUpload(e)` as written. Without a file it only sets the error.
     * Otherwise it starts the upload and an interval; `ticks` is how often live
     * intervals fire before the request settles with `outcome`. On success the
     * interval is cleared, progress becomes 100 and the page navigates to
     * `/documents`; on failure the error carries the server's reason and
     * uploading ends, but the interval is left running.
     */
    method HandleUpload(ticks: nat, outcome: Result<(), ApiService.AxiosError>)
      returns (request: Option<ApiService.Request>, navigateTo: Option<string>)
      modifies this
      ensures file == old(file) && dragActive == old(dragActive)
      ensures old(file).None? ==>
        request.None? && navigateTo.None? && error == Some(NoFileError) &&
        uploading == old(uploading) && uploadProgress == old(uploadProgress) && liveIntervals == old(liveIntervals)
      ensures old(file).Some? ==> request == Some(ApiService.UploadDocument())
      ensures old(file).Some? && outcome.Success? ==>
        uploadProgress == 100 && uploading && error == old(error) && navigateTo == Some("/documents") &&
        liveIntervals == old(liveIntervals) && SubmitDisabled()
      ensures old(file).Some? && outcome.Failure? ==>
        uploadProgress == ProgressAfter(ticks) && uploadProgress <= 90 && !uploading && navigateTo.None? &&
        error == Some("Upload failed: " + ApiService.ErrorText(outcome.error)) &&
        liveIntervals == old(liveIntervals) + 1 && !SubmitDisabled()
    {
      if file.None? {
        error := Some(NoFileError);
        return None, None;
      }
      uploading := true;
      uploadProgress := 0;
      liveIntervals := liveIntervals + 1;
      request := Some(ApiService.UploadDocument());
      var i := 0;
      while i < ticks
        invariant 0 <= i <= ticks
        invariant uploadProgress == ProgressAfter(i)
        modifies this`uploadProgress
      {
        uploadProgress := NextProgress(uploadProgress);
        i := i + 1;
      }
      match outcome {
        case Success(_) =>
          liveIntervals := liveIntervals - 1;
          uploadProgress := 100;
          navigateTo := Some("/documents");
        case Failure(e) =>
          error := Some("Upload failed: " + ApiService.ErrorText(e));
          uploading := false;
          navigateTo := None;
      }
    }

    /**
     * `handleUpload(e)` with the interval cleared whichever way the request
     * settles (as a `finally` would): otherwise as `HandleUpload`.
     */
    method HandleUploadClearingInterval(ticks: nat, outcome: Result<(), ApiService.AxiosError>)
      returns (request: Option<ApiService.Request>, navigateTo: Option<string>)
      modifies this
      ensures file == old(file) && dragActive == old(dragActive) && liveIntervals == old(liveIntervals)
      ensures old(file).None? ==>
        request.None? && navigateTo.None? && error == Some(NoFileError) &&
        uploading == old(uploading) && uploadProgress == old(uploadProgress)
      ensures old(file).Some? ==> request == Some(ApiService.UploadDocument())
      ensures old(file).Some? && outcome.Success? ==>
        uploadProgress == 100 && uploading && error == old(error) && navigateTo == Some("/documents")
      ensures old(file).Some? && outcome.Failure? ==>
        uploadProgress == ProgressAfter(ticks) && uploadProgress <= 90 && !uploading && navigateTo.None? &&
        error == Some("Upload failed: " + ApiService.ErrorText(outcome.error))
    {
      if file.None? {
        error := Some(NoFileError);
        return None, None;
      }
      uploading := true;
      uploadProgress := 0;
      liveIntervals := liveIntervals + 1;
      request := Some(ApiService.UploadDocument());
      var i := 0;
      while i < ticks
        invariant 0 <= i <= ticks
        invariant uploadProgress == ProgressAfter(i)
        modifies this`uploadProgress
      {
        uploadProgress := NextProgress(uploadProgress);
        i := i + 1;
      }
      liveIntervals := liveIntervals - 1;
      match outcome {
        case Success(_) =>
          uploadProgress := 100;
          navigateTo := Some("/documents");
        case Failure(e) =>
          error := Some("Upload failed: " + ApiService.ErrorText(e));
          uploading := false;
          navigateTo := None;
      }
    }
  }

  /**
   * A failed upload followed by a successful retry, as written: the first
   * attempt's interval is still running, and its next firing takes the
   * completed progress back from 100 to 90.
   */
  method RetryAfterFailedUpload(f: FileRef, e: ApiService.AxiosError, ticks: nat) returns (completed: int, afterFiring: int)
    ensures completed == 100 && afterFiring == 90
  {
    var form := new UploadForm();
    form.HandleFileChange([f]);
    var _, _ := form.HandleUpload(ticks, Failure(e));
    var _, _ := form.HandleUpload(ticks, Success(()));
    completed := form.uploadProgress;
    form.IntervalFires();
    afterFiring := form.uploadProgress;
  }

  /**
   * The same sequence when every attempt clears its interval: no interval is
   * left running, so the completed progress stays at 100.
   */
  method RetryAfterFailedUploadCorrected(f: FileRef, e: ApiService.AxiosError, ticks: nat)
    returns (completed: int, liveIntervals: nat)
    ensures completed == 100 && liveIntervals == 0
  {
    var form := new UploadForm();
    form.HandleFileChange([f]);
    var _, _ := form.HandleUploadClearingInterval(ticks, Failure(e));
    var _, _ := form.HandleUploadClearingInterval(ticks, Success(()));
    completed := form.uploadProgress;
    liveIntervals := form.liveIntervals;
  }
}

=== FILE: Wrappers.dfy ===
/** Option and Result, used for the source's `undefined` values and rejected promises. */
module Wrappers {

  datatype Option<+T> = None | Some(value: T) {
    function GetOr(default: T): T {
      match this
      case Some(v) => v
      case None => default
    }
  }

  datatype Result<+R, +E> = Success(value: R) | Failure(error: E)
}
